=== FILE: README.md ===
# couchdb-worker, modelled in Dafny

couchdb-worker lets a worker process documents in a CouchDB database without
two workers handling the same document. A worker marks a document as its own
by writing a `triggered` entry under its name into the document's
`worker_status` map. The write is checked against the revision the worker
read. After processing, the worker writes its outcome into the same entry.

The repository holds two workers and a decorator. Each is modelled as its own
module:

- `CouchWorker` (`lib/couchdb-worker.js`) is the feed worker.
  - `listen(options)` validates its options and follows the change feed.
  - `isProcessable` decides whether a document may be taken.
  - `onchange` pauses the feed and writes the claim. On success it hands the
    document to the user's `process`.
  - `ondone` writes `complete` or `error`, reports the outcome on the feed,
    resumes the feed and calls `next`.
- `CouchWorld` runs any number of feed workers against one store. Feeds
  deliver any revision in any interleaving, however stale. The workers are
  the store's only writers. A world runs
  either the program's `onchange` (`CouchWorker.OnChangeAsWritten`) or the
  corrected one that resumes the feed after a failed claim
  (`CouchWorker.OnChange`). It proves that claims exclude each other under
  both.
- `Store` is the revision-checked store. A write based on a stale revision is
  a conflict.
- `BatchWorker` (`lib/worker.js`) is the batch longpoll worker, written as a
  state machine with one state per outstanding HTTP request.
  - The constructor validates the configuration and fills in the defaults.
  - The worker fetches its configuration and status documents, then reads
    batches of changes.
  - It takes changes off the end of a batch one by one and filters each
    through `_check`.
  - It claims a document by writing `triggered`, hands it to `process`, then
    commits the outcome and merges the result.
  - When a commit fails it resets the document. After each batch it
    checkpoints `last_seq` and its counters into its status document.
  - Every reply is a parameter. A callback that returns without a new request
    leaves the worker `Stopped`. A callback that throws a TypeError leaves it
    `Crashed`.
- `AttachmentsWorker` (`lib/attachments-worker.js`) wraps a batch worker.
  - Its `check` passes a document that has an eligible attachment.
  - Its `process` hands the user's `process` the first eligible attachment in
    key order.
- `Json` holds JavaScript values: objects whose keys are listed in the order
  they were added (JavaScript lists integer-like keys first; see
  "Left out"), truthiness, `===`, property update and delete, `_.keys` and `_.extend`.
  `StatusMap` holds the `worker_status` map. `Wrappers` holds `Option` and
  `Result`.

The two workers do not promise the same thing, and the model shows both:

- Feed worker: a claim excludes every other worker, because `isProcessable`
  refuses a document that holds any `triggered` entry
  (`CouchWorld.RunKeepsExclusion`).
- Batch worker: `_check` looks only at its own entry, so claims by two
  different workers stack up on one document (`BatchWorker.ClaimsStack`).

## Model

| member | source | states |
|---|---|---|
| CouchWorker.Listen | lib/couchdb-worker.js:11-53 | options need a string `id`, a function `process` and a database url `db`; a missing `db` is refused; when all three are there and `follow` is absent or an object, listen succeeds, keeps `db` for the database handle, and the options passed on to the feed always ask for `include_docs` |
| CouchWorker.IsProcessable | lib/couchdb-worker.js:34-47 | a document without a status map is processable; a document that any worker has claimed is not, whether the map is an object or an array holding a `triggered` element; otherwise it is processable exactly when this worker has no entry |
| StatusMap.AnyTriggered | lib/couchdb-worker.js:40-44 | the enumeration of the status map finds a `triggered` entry exactly when some worker holds a claim in an object map, or some element of an array map is `triggered` |
| CouchWorker.ClaimDoc | lib/couchdb-worker.js:94-97 | the claim sets the own entry's `status` to `triggered` and drops its `error`; the claim keeps every other field of the entry, every other worker's entry and every other document field |
| CouchWorker.MarkDone | lib/couchdb-worker.js:64-70 | the commit records `error` with the payload, or `complete`, in the own entry; the rest of the document is untouched and the own claim is released |
| CouchWorker.ClaimLeavesOneTrigger | lib/couchdb-worker.js:92-97 | claiming a processable document leaves exactly one `triggered` entry, the claimer's |
| CouchWorker.ClaimExcludesEveryone | lib/couchdb-worker.js:40-44 | a claimed document is processable for no worker, the claimer included |
| CouchWorker.CommitReleases | lib/couchdb-worker.js:64-70 | after claim and commit, no claim remains; the worker never takes the document again; any other worker may take it exactly when it has no entry of its own |
| CouchWorker.MarkDoneClears | lib/couchdb-worker.js:66-69 | committing over the only claim on a document leaves no claim at all |
| CouchWorker.OnChangeAsWritten | lib/couchdb-worker.js:88-110 | an unprocessable change changes nothing; a processable change pauses the feed; `process` is called exactly when the claim write lands, that is with no fault and based on the latest revision; a failed claim writes nothing and reports every error but a conflict |
| CouchWorker.OnChange | lib/couchdb-worker.js:99-105 | the same writes and events as `OnChangeAsWritten`, with the feed flowing again whenever no document is held |
| CouchWorker.OnDone | lib/couchdb-worker.js:64-86 | the commit writes the document `process` handed back, with the outcome in the own entry, based on the held revision; a stored commit emits `worker:complete` with the new revision and passes `next` a null error; a failed commit emits `worker:error` and passes `next` the write's error; the feed resumes either way |
| CouchWorker.StallAfterConflict | lib/couchdb-worker.js:99-105 | as written, a processable document read at a stale revision makes the claim conflict and leaves the worker paused with nothing in flight, so it never acts again |
| CouchWorker.NoStall | lib/couchdb-worker.js:99-105 | with the feed resumed after a failed claim, every outcome of a change leaves the worker able to act |
| Store.Put | lib/couchdb-worker.js:72 | a write lands exactly when nothing failed and it is based on the document's latest revision; a landed write creates the next revision and leaves every other document's latest revision alone |
| Store.SnapshotsKept | lib/couchdb-worker.js:61-62 | a landed write keeps every earlier revision readable as it was, so a feed may still deliver it |
| Store.SameBaseRace | lib/couchdb-worker.js:99-105 | two writes of one document based on the same revision cannot both land: the second is a conflict |
| CouchWorld.Init | lib/couchdb-worker.js:114-120 | workers that have just subscribed, over a store whose revisions each hold at most one claim, satisfy the invariant, whichever `onchange` the world runs |
| CouchWorld.DeliverPreservesInv | lib/couchdb-worker.js:88-110 | delivering any stored revision to an idle worker keeps the invariant, with the program's `onchange` and with the corrected one |
| CouchWorld.FinishPreservesInv | lib/couchdb-worker.js:64-86 | a `process` calling back with any document that keeps the held `_id`, `_rev` and status map keeps the invariant; any other callback is not a step |
| CouchWorld.ProcessedLikeHeld | lib/couchdb-worker.js:64-72 | a processed document that keeps the held `_id`, `_rev` and status map carries the same claims as the held one |
| CouchWorld.StepPreservesInv | lib/couchdb-worker.js:61-111 | every step of every worker keeps the invariant, with either `onchange` |
| CouchWorld.RunKeepsExclusion | lib/couchdb-worker.js:30-33 | under any interleaving of feeds and callbacks, and with the program's `onchange` as with the corrected one, no stored revision holds two `triggered` entries and no two workers process the same document at once |
| CouchWorld.CommitNeverConflicts | lib/couchdb-worker.js:72-86 | in a world whose only writers are the workers, a fault-free commit of a held document, as `process` handed it back, always lands, because no other worker can have written the document meanwhile |
| CouchWorld.ClaimRace | lib/couchdb-worker.js:99-105 | when two workers read the same revision and the first claim lands, the second claim conflicts: nothing is written, nothing is reported, and the second worker holds nothing; it stays paused exactly when the world runs the program's `onchange` |
| Json.Extend | lib/worker.js:229 | copying pairs onto an object leaves each key at its last pair's value, and every key no pair names at its old value |
| Json.ExtendWithObject | lib/worker.js:295 | `_.extend` with an object replaces each of the source's own keys whole and keeps every other key |
| Json.Keys | lib/attachments-worker.js:49 | `_.keys` lists exactly the present properties of an object |
| Json.KeysOfWellFormed | lib/attachments-worker.js:49 | on an object that lists each property once, `_.keys` names every property exactly once and nothing else |
| Json.UpdatesKeepWellFormed | lib/worker.js:223-226 | property assignment and `delete` keep every property listed exactly once |
| Json.ExtendKeepsWellFormed | lib/worker.js:229 | `_.extend` keeps every property listed exactly once |
| BatchWorker.Construct | lib/worker.js:17-54 | the constructor succeeds exactly when the configuration is an object with a non-empty name and server and a processor with a function `process`, a function or falsy `check`, and numeric or falsy numeric options; it derives the ids from the name and defaults the batch size to 10, the timeout to 60000 and `since` to 0 |
| BatchWorker.ReservedIdsDistinct | lib/worker.js:41-42 | the configuration and status ids differ, each carries its own prefix only, and neither is a design document's id |
| BatchWorker.CheckResponse | lib/worker.js:332-352 | a reply is usable exactly when there is no transport error, the status is below 400 and the body is of type object; otherwise the report names the message, and either the transport error or the status and body |
| BatchWorker.Cursor | lib/worker.js:104 | resumption prefers the status document's `last_seq`, then the configured `since`, then the last batch's `last_seq` |
| BatchWorker.Listen | lib/worker.js:97-110 | a changes request is pending afterwards, with `since` exactly when the cursor is truthy; nothing else changes |
| BatchWorker.OnConfig | lib/worker.js:68-78 | a transport error stops the worker; otherwise a usable document becomes the configuration and the status is fetched next |
| BatchWorker.OnStatus | lib/worker.js:81-91 | a transport error stops the worker; otherwise a usable document becomes the status and the worker starts listening |
| BatchWorker.Check | lib/worker.js:168-191 | without a configuration nothing passes; a missing string `_id` throws; the worker's own configuration and status documents are skipped uncounted; every other document is counted; design documents and documents carrying this worker's status are refused; the rest gets the user's verdict, or passes when there is no check |
| BatchWorker.SetWorkerStatus | lib/worker.js:222-230 | writing a status fails exactly on a truthy non-object map; otherwise only the own entry of the map changes |
| BatchWorker.SetWorkerStatusEntry | lib/worker.js:222-230 | afterwards the own entry carries the given status's fields, has lost its old `status` unless the given one sets it, and keeps every other field |
| BatchWorker.ClaimMarks | lib/worker.js:194-197 | the claim marks the own entry `triggered` whenever the entry was absent or an object |
| BatchWorker.Process | lib/worker.js:194-204 | processing a document either writes the claim or throws; the written document carries the own claim and differs from the original only in the own entry |
| BatchWorker.MergeResult | lib/worker.js:287-296 | a result that is not of type object is ignored, and merging keeps the document an object |
| BatchWorker.MergeIsShallow | lib/worker.js:294-295 | every top-level key of the result replaces the document's value whole, nested objects included; other keys stay |
| BatchWorker.Outcome | lib/worker.js:216 | the committed status is the one `process` gave, else `error` when it reported an error, else `completed` |
| BatchWorker.CommitDoc | lib/worker.js:233-235 | the commit writes the outcome first and merges the result after it, and fails exactly when writing the outcome fails |
| BatchWorker.CommitRecordsOutcome | lib/worker.js:222-235 | on an object document the commit succeeds; unless the result replaces the status map, every field of the outcome lands in the own entry and every other worker's entry stays as it was; every key the result does not name, other than the status map, keeps its value |
| BatchWorker.DefaultOutcomeCommitted | lib/worker.js:214-235 | when `process` gives no status and its result leaves the status map alone, the own entry is committed as `error` after a reported error and as `completed` otherwise |
| BatchWorker.ResultKeysWin | lib/worker.js:233-235 | a result key, `worker_status` included, overwrites what the outcome wrote |
| BatchWorker.ClearOwnStatus | lib/worker.js:266 | a reset leaves the own entry empty whenever the map is an object, and changes nothing else |
| BatchWorker.AddCount | lib/worker.js:309-312 | an absent counter starts at the batch count; a numeric counter grows by exactly the batch count |
| BatchWorker.ChangesDone | lib/worker.js:301-313 | a batch with nothing checked just listens again; otherwise only the status changes and it is stored |
| BatchWorker.CheckpointCounts | lib/worker.js:306-312 | the checkpoint's status carries the status id when it was created, the batch's `last_seq`, and each numeric counter raised by the batch's count |
| BatchWorker.CountersNeverDecrease | lib/worker.js:309-312 | the checkpoint never lowers a numeric counter |
| BatchWorker.TakeChange | lib/worker.js:134-162 | taking a change pops the last one and counts at most one document; a falsy change ends the batch; the walk stops at a change exactly when it is truthy, names neither reserved document, is not a deletion, and `_check` passes or throws on its document; a claim is only started on such a change |
| BatchWorker.NextChange | lib/worker.js:134-163 | the batch is consumed from the end; the worker stops either at a claim on a change that passed every filter, at a throw, or at the end of the batch, which an empty batch or a falsy change reaches; at the end it stores a checkpoint exactly when some document was checked, and listens again otherwise; at most one document is counted per change taken |
| BatchWorker.PassingChangeClaimed | lib/worker.js:156-158 | a change that passes every filter is popped, counted when `_check` counts it, and handed to `_process` right there; when `_check` throws the worker crashes there |
| BatchWorker.DeletedChangeSkipped | lib/worker.js:156-162 | a deleted change of neither reserved document is popped uncounted and the walk goes on with the rest of the batch |
| BatchWorker.RefusedChangeSkipped | lib/worker.js:156-162 | a change the walk does not stop at, that is not a deletion and names neither reserved document, is one `_check` refuses; it is popped, counted when `_check` counts it, and the walk goes on with the rest of the batch |
| BatchWorker.EndOfBatchCheckpoints | lib/worker.js:134-139 | an empty batch, or a falsy last change, ends the walk through `_changesDone`: a checkpoint is stored exactly when some document was checked, and otherwise the worker listens again |
| BatchWorker.ReservedChangeTaken | lib/worker.js:141-154 | the last change of a batch, when it names the configuration or the status document, is popped and skipped uncounted, and installs that change's document as the configuration or the status, or clears it when the change is a deletion |
| BatchWorker.ConfigChangeInstalled | lib/worker.js:141-146 | in a batch of any length, a change of the configuration document is consumed by installing its document as the configuration, or clearing it when deleted, and the rest of the batch is worked on with that configuration |
| BatchWorker.StatusChangeInstalled | lib/worker.js:148-154 | in a batch of any length, a change of the worker's status document is consumed by installing its document as the status, or clearing it when deleted, and the rest of the batch is worked on with that status |
| BatchWorker.DeletedNeverClaimed | lib/worker.js:141-162 | in a batch of any length, the change a claim is started on is neither a deletion nor a change of the worker's configuration or status document, and the claim is on that change's document |
| BatchWorker.OnChanges | lib/worker.js:114-128 | an unusable reply stops the worker; results that are not an array throw; otherwise the counts restart from zero, `last_seq` is remembered, and the reply's `results` are walked from the end: what is left of the batch is a prefix of them, shorter whenever there was any, an empty batch listens again, a claim is on a change of the reply that passed every filter, and at most one document per change is counted |
| BatchWorker.OnChangesWalksResults | lib/worker.js:114-128 | a usable batch is walked by `_nextChange` over exactly the reply's `results`, from counts of zero |
| BatchWorker.OnClaimed | lib/worker.js:204-212 | a failed claim moves on to the next change; a landed claim hands the document, with its new revision, to `process` |
| BatchWorker.OnProcessed | lib/worker.js:212-217 | the callback of `process` counts the document and commits the outcome and result onto the document as `process` left it, throwing exactly when the outcome cannot be written |
| BatchWorker.ProcessedEditsCommitted | lib/worker.js:212-235 | what `process` changed in place is committed: every key the result does not name, the status map aside, goes out as `process` left it, and without a status from `process` the own entry reads `error` or `completed` |
| BatchWorker.OnCommitted | lib/worker.js:242-253 | a failed commit resets the document; a landed one moves on to the next change |
| BatchWorker.OnResetFetched | lib/worker.js:257-267 | a failed read gives up on the document; otherwise the fetched document without the own entry is written back |
| BatchWorker.OnResetWritten | lib/worker.js:269-282 | a failed reset write starts the reset over; a landed one moves on to the next change |
| BatchWorker.OnStatusStored | lib/worker.js:319-327 | a failed checkpoint stops the worker; a landed one records the status's new revision and listens again |
| BatchWorker.OthersClaimInvisible | lib/worker.js:185 | another worker's claim does not stop this worker's `_check` from passing the document |
| BatchWorker.SecondClaimKeepsFirst | lib/worker.js:222-230 | a second worker's claim keeps the first worker's claim in place |
| BatchWorker.ClaimsStack | lib/worker.js:168-197 | two workers can both claim one document, leaving two `triggered` entries |
| AttachmentsWorker.CheckAttachment | lib/attachments-worker.js:29-41 | an attachment with a recorded status is refused unless that status is `completed` at a `revpos` different from the attachment's current one; any other attachment gets the user's verdict, or passes when there is no check |
| AttachmentsWorker.CompletedUntilRevposChanges | lib/attachments-worker.js:32-34 | an attachment recorded `completed` stays ineligible while its `revpos` is unchanged, and falls back to the user's check once it moves |
| AttachmentsWorker.UnfinishedNeverEligible | lib/attachments-worker.js:34 | an attachment recorded with any status other than `completed` is never eligible |
| AttachmentsWorker.RecordIgnoredAsWritten | lib/attachments-worker.js:30 | reading the record under `this.name` of an unbound call misses the worker's own record: an attachment completed at its current `revpos` is still eligible |
| AttachmentsWorker.FirstEligibleFrom | lib/attachments-worker.js:53 | the search finds the first eligible name in key order, or reports that none is eligible |
| AttachmentsWorker.DocCheck | lib/attachments-worker.js:44-50 | a document without attachments, or with none listed, fails the check; otherwise it passes exactly when some attachment is eligible |
| AttachmentsWorker.Select | lib/attachments-worker.js:51-57 | `process` is handed an attachment name or `undefined` |
| AttachmentsWorker.SelectAfterCheck | lib/attachments-worker.js:44-57 | `process` is handed a name exactly when some attachment is eligible; after a passing check that name is eligible and every name before it is not |
| AttachmentsWorker.WrappedProcessor | lib/attachments-worker.js:43-58 | the processor handed to the batch worker is an object carrying the wrapped `check` and `process` |
| AttachmentsWorker.Construct | lib/attachments-worker.js:17-60 | the decorator succeeds exactly when it accepts the user's processor and the batch worker accepts the configuration with the wrapped processor; the batch worker then always has a check and keeps the configured name |
| AttachmentsWorker.DecoratedCheck | lib/attachments-worker.js:44-50 | inside the batch worker, a document its own filters let through is counted and passes exactly when it has an eligible attachment |

## Left out

- Transport and logging are left out: `nano`, `follow`, `request`, URLs and
  `encodeURIComponent`, the credential-stripped server string, and all
  console output. Each HTTP exchange is one step that takes its reply as a
  parameter.
- The user's `check` is a function parameter. The user's `process` is the gap
  between two steps, and the arguments it calls back with are parameters. So
  is the document as `process` leaves it: both workers commit whatever
  `process` changed in place. The model assumes `process` calls back exactly
  once.
- Numbers are mathematical integers, with no fractions, `NaN` or infinities.
  Counters and sequence values are never large enough to round.
- `lib/worker-pool.js`, `lib/attachments-worker-pool.js`, `index.js` and the
  examples are not part of this model. They only start workers.
- CouchWorker.Listen: the feed and database handles, the processing context
  and the subscription are left out. The contract covers validation, the
  follow options and the `db` url kept for the database handle. A `follow`
  that is an array or a function is accepted but left without
  `include_docs`, where the source sets the property on it. A truthy `db`
  is accepted whatever it holds; what the database connector would refuse
  beyond a missing url is not part of this model.
- CouchWorker.IsProcessable: an entry that is `null` or `undefined` is read as
  having no status. The source throws a TypeError on such an entry.
- CouchWorker.IsProcessable: on a status map that is an array or a string,
  the worker's own entry is read as absent, even when the worker id is
  integer-like or `length`, where the source would find an element.
- CouchWorker.OnChangeAsWritten: only documents whose status map is absent or
  an object are modelled. Such documents are the only ones a worker writes.
  A non-string `_id` is read as the empty id.
- CouchWorker.OnDone: the `ondone` of a claim whose held document lost its
  entry is not modelled. A reply that never arrives is not modelled either.
  Both would leave the feed paused.
- CouchWorker.OnDone: the document `process` hands back may change any field
  but `_id`, `_rev` and `worker_status` (`CouchWorker.KeepsClaim`). A
  `process` that changes those fields is not modelled.
- CouchWorld: the store is written only by the workers' claims and commits.
  In CouchDB anyone may update a document at any time; such a write makes a
  pending commit conflict, and one that removes a claim lets a second worker
  take the document. `CouchWorld.CommitNeverConflicts` and the "no two
  workers hold one document" half of `CouchWorld.RunKeepsExclusion` hold
  only because outside writes are left out.
- Store.Put: a failed write always reports a truthy error, as the database
  connector does. The source tests `if (err)`, so a falsy error would take
  the success path (lib/couchdb-worker.js:72-86 and 99-105).
- Store.Put: CouchDB's revision tokens are modelled as the write count.
  Deletions, attachments and replication conflicts are not modelled.
- BatchWorker.Construct: a truthy name that is not a string is refused. The
  source would coerce it into the ids.
- BatchWorker.Construct: an `auth` option only configures requests, so it is
  not modelled.
- BatchWorker.Check: a status map or configuration that is an array is
  treated like any other truthy non-object.
- BatchWorker.AddCount: only absent and numeric counters get a contract. A
  `true` counter becomes one more than the count, and a string or object
  counter gets the count appended to its string form, as in the source. An
  array or function counter is returned unchanged, where JavaScript's `+`
  would append the count to its string form.
- BatchWorker.SetWorkerStatus: a status map that is an array leaves the
  worker `Crashed`. The source, in sloppy mode, sets a named property on the
  array, which `JSON.stringify` then drops, and goes on with the write.
- BatchWorker.Process: a document whose status map is an array is not
  claimed; the worker crashes, as `BatchWorker.SetWorkerStatus` does.
- BatchWorker.Process: the own entry is `triggered` afterwards only when it
  was absent or an object. The source writes onto a truthy primitive entry
  without effect.
- BatchWorker.NextChange: the claim is `triggered` only under the same
  condition as `BatchWorker.Process`.
- BatchWorker.OnResetWritten: a reset whose write keeps failing retries
  forever, as in the source. No claim is made about termination.
- Json.Keys: `_.keys` of an array is modelled as empty. Underscore would list
  the array's indices.
- Json.Keys: keys are listed in the order they were added. JavaScript lists
  integer-like keys (`"0"`, `"42"`) first, in ascending order, then the other
  keys in the order they were added.
- AttachmentsWorker.Select: "first eligible attachment" means first in the
  order of `Json.Keys`; for attachment names that are integer-like,
  JavaScript's order would differ.
- AttachmentsWorker.DocCheck: a truthy `_attachments` that is not an object
  counts as having no attachments.
- AttachmentsWorker.CheckAttachment: reading `revpos` of a missing
  attachment stub gives `undefined` instead of throwing.
- AttachmentsWorker.Construct: the user's `process` is not called here. What
  it is handed is `AttachmentsWorker.Select`.

## Findings

| source | as written | input that shows it | evidently intended | confidence | as-written member | corrected member |
|---|---|---|---|---|---|---|
| lib/couchdb-worker.js:99-105 | a failed claim returns without `feed.resume()`, after `feed.pause()` was called | document `{_id: "d"}` delivered at revision 1 after revision 2 was written: the claim conflicts and the feed stays paused | resume the feed after a failed claim so later changes arrive | medium, not executed | CouchWorker.StallAfterConflict | CouchWorker.NoStall |
| lib/attachments-worker.js:30 | `checkAttachment` is called without a receiver, so `this.name` is the global `name` (`undefined`) and the record is read from `worker_status["undefined"]` | worker `w` with `worker_status.w.a = {status: "completed", revpos: 1}` and attachment `a` at `revpos` 1: the attachment is still eligible | read the record under the worker's own name | medium, not executed | AttachmentsWorker.RecordIgnoredAsWritten | AttachmentsWorker.CompletedUntilRevposChanges |

=== FILE: attachments_worker.dfy ===
/**
 The attachments decorator of `lib/attachments-worker.js`.

 It validates the user's processor, then builds a batch worker whose
 processor is replaced: the document-level `check` passes a document that
 has at least one eligible attachment, and `process` hands the user's
 `process` the first eligible attachment in key order.

 An attachment is eligible unless this worker's entry records a status for
 it that is not `completed`, or records `completed` at the attachment's
 current `revpos`; an eligible attachment is then subject to the user's
 `check(doc, name)` when one is given. The entry is read under `owner`,
 a parameter: the evidently intended owner is the worker's name, while the
 source, calling `checkAttachment` without a receiver, reads it under
 `UnboundOwner`.
 */
module AttachmentsWorker {
  import opened Wrappers
  import opened Json
  import opened StatusMap
  import BatchWorker

  // ---------------------------------------------------------------------
  // One attachment

  /** `doc._attachments` */
  function Attachments(doc: Value): Value {
    Get(doc, "_attachments")
  }

  /** `doc.worker_status[owner][name]`: what this worker recorded for the attachment. */
  function Recorded(doc: Value, owner: string, name: string): Value {
    Get(Entry(doc, owner), name)
  }

  /** The recorded status blocks the attachment: not `completed`, or `completed` at the current `revpos`. */
  predicate Blocked(doc: Value, owner: string, name: string) {
    var status := Recorded(doc, owner, name);
    && Truthy(status)
    && (|| !StrictEquals(Get(status, "status"), Str("completed"))
        || StrictEquals(Get(Get(Attachments(doc), name), "revpos"), Get(status, "revpos")))
  }

  /** `checkAttachment(doc, name)` */
  function CheckAttachment(doc: Value, owner: string, name: string, hasCheck: bool, check: (Value, string) -> Value): (r: Value)
    ensures Blocked(doc, owner, name) ==> r == Bool(false)
    ensures !Blocked(doc, owner, name) ==> r == (if hasCheck then check(doc, name) else Bool(true))
  {
    var status := Recorded(doc, owner, name);
    if Truthy(status)
       && (!StrictEquals(Get(status, "status"), Str("completed"))
           || StrictEquals(Get(Get(Attachments(doc), name), "revpos"), Get(status, "revpos")))
    then Bool(false)
    else if !hasCheck then Bool(true)
    else check(doc, name)
  }

  predicate Eligible(doc: Value, owner: string, name: string, hasCheck: bool, check: (Value, string) -> Value) {
    Truthy(CheckAttachment(doc, owner, name, hasCheck, check))
  }

  /** A `{status, revpos}` record for attachment `name` in this worker's entry. */
  function WithRecord(doc: Value, owner: string, name: string, record: Value): Value {
    With(doc, StatusKey, With(StatusObject(doc), owner, With(Entry(doc, owner), name, record)))
  }

  /**
   An attachment recorded `completed` at revision position `n` stays
   ineligible while its `revpos` is `n`, and falls back to the user's check
   once its `revpos` has moved on.
   */
  lemma CompletedUntilRevposChanges(doc: Value, owner: string, name: string, n: int, m: int,
                                    hasCheck: bool, check: (Value, string) -> Value)
    requires doc.Obj? && StatusObject(doc).Obj? && Entry(doc, owner).Obj? && Get(Attachments(doc), name).Obj?
    requires name != "_attachments" && StatusKey != "_attachments"
    ensures var record := With(With(EmptyObject(), "status", Str("completed")), "revpos", Num(n));
      var done := WithRecord(doc, owner, name, record);
      && !Eligible(With(done, "_attachments", With(Attachments(doc), name, With(Get(Attachments(doc), name), "revpos", Num(n)))),
                   owner, name, hasCheck, check)
      && (m != n ==>
            var moved := With(done, "_attachments", With(Attachments(doc), name, With(Get(Attachments(doc), name), "revpos", Num(m))));
            CheckAttachment(moved, owner, name, hasCheck, check) == (if hasCheck then check(moved, name) else Bool(true)))
  {
  }

  /** A status other than `completed` is never eligible, whatever the `revpos`. */
  lemma UnfinishedNeverEligible(doc: Value, owner: string, name: string, hasCheck: bool, check: (Value, string) -> Value)
    requires Truthy(Recorded(doc, owner, name))
    requires !StrictEquals(Get(Recorded(doc, owner, name), "status"), Str("completed"))
    ensures !Eligible(doc, owner, name, hasCheck, check)
  {
  }

  /**
   The key `checkAttachment` actually reads the entry under. It is called
   without a receiver from a non-strict module, so `this.name` is the global
   object's `name`, which is `undefined`, and the lookup becomes
   `doc.worker_status["undefined"]`.
   */
  const UnboundOwner := "undefined"

  /**
   Read under `UnboundOwner`, a worker's own record is never consulted: an
   attachment worker `w` recorded `completed` at its current `revpos` is
   blocked when read under `w` and still eligible as the source reads it.
   */
  lemma RecordIgnoredAsWritten(check: (Value, string) -> Value)
    ensures var record := With(With(EmptyObject(), "status", Str("completed")), "revpos", Num(1));
      var atts := With(EmptyObject(), "a", With(EmptyObject(), "revpos", Num(1)));
      var doc := With(With(EmptyObject(), "_attachments", atts), StatusKey,
                      With(EmptyObject(), "w", With(EmptyObject(), "a", record)));
      && !Eligible(doc, "w", "a", false, check)
      && Eligible(doc, UnboundOwner, "a", false, check)
  {
    var record := With(With(EmptyObject(), "status", Str("completed")), "revpos", Num(1));
    var atts := With(EmptyObject(), "a", With(EmptyObject(), "revpos", Num(1)));
    var doc := With(With(EmptyObject(), "_attachments", atts), StatusKey,
                    With(EmptyObject(), "w", With(EmptyObject(), "a", record)));
    assert Recorded(doc, "w", "a") == record;
    assert Recorded(doc, UnboundOwner, "a") == Undefined;
  }

  // ---------------------------------------------------------------------
  // The whole document

  /** The position of the first eligible name at or after `from`, as `_.find` scans. */
  function FirstEligibleFrom(doc: Value, owner: string, names: seq<string>, from: nat,
                             hasCheck: bool, check: (Value, string) -> Value): (r: Option<nat>)
    requires from <= |names|
    decreases |names| - from
    ensures r.Some? ==> from <= r.value < |names| && Eligible(doc, owner, names[r.value], hasCheck, check)
    ensures r.Some? ==> forall j :: from <= j < r.value ==> !Eligible(doc, owner, names[j], hasCheck, check)
    ensures r.None? ==> forall j :: from <= j < |names| ==> !Eligible(doc, owner, names[j], hasCheck, check)
  {
    if from == |names| then None
    else if Eligible(doc, owner, names[from], hasCheck, check) then Some(from)
    else FirstEligibleFrom(doc, owner, names, from + 1, hasCheck, check)
  }

  /** Some attachment name is eligible (`_.any`). */
  predicate AnyEligible(doc: Value, owner: string, hasCheck: bool, check: (Value, string) -> Value) {
    exists name :: name in Keys(Attachments(doc)) && Eligible(doc, owner, name, hasCheck, check)
  }

  /** The wrapped `processor.check(doc)`: attachments present, at least one, and any of them eligible. */
  function DocCheck(doc: Value, owner: string, hasCheck: bool, check: (Value, string) -> Value): (r: Value)
    ensures !Truthy(Attachments(doc)) ==> !Truthy(r)
    ensures Keys(Attachments(doc)) == [] ==> !Truthy(r)
    ensures Truthy(Attachments(doc)) && Keys(Attachments(doc)) != [] ==>
      r == Bool(AnyEligible(doc, owner, hasCheck, check))
  {
    var atts := Attachments(doc);
    And(And(atts, Num(|Keys(atts)|)), Bool(AnyEligible(doc, owner, hasCheck, check)))
  }

  /** The wrapped `processor.process(doc, commit)`'s choice: the first eligible attachment's name, or `undefined`. */
  function Select(doc: Value, owner: string, hasCheck: bool, check: (Value, string) -> Value): (r: Value)
    ensures r == Undefined || r.Str?
  {
    var names := Keys(Attachments(doc));
    match FirstEligibleFrom(doc, owner, names, 0, hasCheck, check)
    case None => Undefined
    case Some(i) => Str(names[i])
  }

  /**
   Whenever the document-level check passed, `process` has an attachment to
   hand on: an eligible one, with every attachment before it in key order
   ineligible. Without any eligible attachment it hands on `undefined`.
   */
  lemma SelectAfterCheck(doc: Value, owner: string, hasCheck: bool, check: (Value, string) -> Value)
    ensures Truthy(DocCheck(doc, owner, hasCheck, check)) ==>
      var names := Keys(Attachments(doc));
      && Select(doc, owner, hasCheck, check).Str?
      && exists i :: 0 <= i < |names| && Select(doc, owner, hasCheck, check) == Str(names[i])
           && Eligible(doc, owner, names[i], hasCheck, check)
           && forall j :: 0 <= j < i ==> !Eligible(doc, owner, names[j], hasCheck, check)
    ensures Select(doc, owner, hasCheck, check).Str? <==> AnyEligible(doc, owner, hasCheck, check)
  {
    var names := Keys(Attachments(doc));
    var r := FirstEligibleFrom(doc, owner, names, 0, hasCheck, check);
    if r.Some? {
      assert Eligible(doc, owner, names[r.value], hasCheck, check);
    }
  }

  // ---------------------------------------------------------------------
  // Construction

  /** Why `new AttachmentsWorker(config, db)` throws. */
  datatype DecoratorError =
    | ConfigNotObject      // 'I need a config!'
    | ConfigNull           // TypeError reading `config.processor` of null
    | ProcessorNotObject   // 'I need a processor!'
    | ProcessorNull        // TypeError reading `config.processor.process` of null
    | MissingProcess       // 'I need a processor.process function!'
    | CheckNotFunction     // 'processor.check must be a function if given!'
    | WorkerFailed(error: BatchWorker.ConfigError)   // thrown by the batch worker's constructor

  /** The decorator's own processor: its `check` and `process` closures. */
  const WrappedCheck := Func(0)
  const WrappedProcess := Func(1)

  function WrappedProcessor(): (p: Value)
    ensures p.Obj? && Get(p, "check") == WrappedCheck && Get(p, "process") == WrappedProcess
  {
    With(With(EmptyObject(), "check", WrappedCheck), "process", WrappedProcess)
  }

  /** What the decorator itself demands of the user's processor. */
  predicate ValidProcessor(config: Value) {
    var p := Get(config, "processor");
    && config.Obj?
    && p.Obj?
    && Get(p, "process").Func?
    && (!Truthy(Get(p, "check")) || Get(p, "check").Func?)
  }

  /** `new AttachmentsWorker(config, db)`: validate, swap the processor, build the batch worker. */
  function Construct(config: Value): (r: Result<BatchWorker.Worker, DecoratorError>)
    ensures r.Ok? <==> ValidProcessor(config) && BatchWorker.ValidConfig(With(config, "processor", WrappedProcessor()))
    ensures !IsObjectType(config) ==> r == Err(ConfigNotObject)
    ensures config.Obj? && !IsObjectType(Get(config, "processor")) ==> r == Err(ProcessorNotObject)
    ensures r.Ok? ==> r.value.settings.hasCheck
    ensures r.Ok? ==> Str(r.value.settings.name) == Get(config, "name")
  {
    if !IsObjectType(config) then Err(ConfigNotObject)
    else if config.Null? then Err(ConfigNull)
    else
      var p := Get(config, "processor");
      if !IsObjectType(p) then Err(ProcessorNotObject)
      else if p.Null? then Err(ProcessorNull)
      else if !Get(p, "process").Func? then Err(MissingProcess)
      else if Truthy(Get(p, "check")) && !Get(p, "check").Func? then Err(CheckNotFunction)
      else
        match BatchWorker.Construct(With(config, "processor", WrappedProcessor()))
        case Ok(w) => Ok(w)
        case Err(e) => Err(WorkerFailed(e))
  }

  /** The `check` the decorated batch worker runs. */
  function WorkerCheck(owner: string, hasCheck: bool, check: (Value, string) -> Value): Value -> Value {
    doc => DocCheck(doc, owner, hasCheck, check)
  }

  /**
   Inside the batch worker named `name`, a document its own filters let
   through passes exactly when it has an attachment eligible under the
   worker's own entry.
   */
  lemma DecoratedCheck(config: Value, name: string, hasCheck: bool, check: (Value, string) -> Value, doc: Value)
    requires Truthy(config) && Get(doc, "_id").Str?
    requires !StartsWith(IdOf(doc), BatchWorker.ConfigPrefix) && !StartsWith(IdOf(doc), BatchWorker.StatusPrefix)
    requires !StartsWith(IdOf(doc), BatchWorker.DesignPrefix) && !BatchWorker.OwnStatusSet(doc, name)
    requires Truthy(Attachments(doc)) && Keys(Attachments(doc)) != []
    ensures var v := BatchWorker.Check(config, name, true, WorkerCheck(name, hasCheck, check), doc);
      v.Verdict? && v.counted && (Truthy(v.pass) <==> AnyEligible(doc, name, hasCheck, check))
  {
  }
}

=== FILE: batch_worker.dfy ===
/**
 The batch worker of `lib/worker.js`.

 A `Worker` is validated from a configuration object, fetches its own
 configuration and status documents, then loops: read a batch of changes
 with a longpoll request, take the changes off the end of the batch one by
 one, claim each document that passes `_check` by writing a `triggered`
 status into it, let the user's `process` run, commit the outcome (or reset
 the document's status when the commit fails), and finally checkpoint the
 batch into the status document before reading the next batch.

 Every HTTP exchange is a step whose `Reply` is a parameter; a callback that
 returns without issuing a request leaves the worker `Stopped`, and one that
 throws a TypeError leaves it `Crashed`. The user's `processor.check` is the
 function parameter `check`; the user's `process` is the time between a
 claim landing and `OnProcessed`, whose arguments are what it called back
 with and the document as it left it.
 */
module BatchWorker {
  import opened Wrappers
  import opened Json
  import opened StatusMap

  // ---------------------------------------------------------------------
  // Construction

  /** Why `new Worker(config, db)` throws. */
  datatype ConfigError =
    | ConfigNotObject      // 'I need a config!'
    | ConfigNull           // TypeError reading `config.name` of null
    | MissingName          // 'I need a name!'
    | NameNotString        // a truthy name that is not a string (outside the model)
    | MissingServer        // 'I need a server!'
    | ServerNotString      // TypeError: `this.server.replace` is not a function
    | ProcessorNotObject   // 'I need a processor!'
    | ProcessorNull        // TypeError reading `config.processor.process` of null
    | MissingProcess       // 'I need a processor.process function!'
    | CheckNotFunction     // 'processor.check must be a function if given!'
    | BatchSizeNotNumber   // 'batch_size must be a number!'
    | TimeoutNotNumber     // 'timeout must be a number!'
    | SinceNotNumber       // 'since must be a number!'

  /** Which request the worker waits for, or why it waits for none. */
  datatype Phase =
    | FetchingConfig                   // GET worker-config/<name>
    | FetchingStatus                   // GET worker-status/<name>
    | Listening(since: Option<Value>)  // GET _changes, with `&since=` when present
    | Claiming(doc: Value)             // PUT of the document marked `triggered`
    | Processing(doc: Value)           // the user's process holds the claimed document
    | Committing(doc: Value)           // PUT of the document with its outcome
    | Resetting(doc: Value)            // GET of the document whose commit failed
    | ResetWriting(doc: Value)         // PUT of the document with the own entry removed
    | StoringStatus                    // PUT of the status document
    | Stopped                          // a callback returned without a further request
    | Crashed                          // a callback threw

  /** What the constructor fixes for the worker's lifetime. */
  datatype Settings = Settings(
    name: string,
    server: string,
    configId: string,
    statusId: string,
    batchSize: int,
    timeout: int,
    since: int,
    hasCheck: bool)

  datatype Worker = Worker(
    settings: Settings,
    config: Value,      // `Undefined` while there is none
    status: Value,      // `Undefined` while there is none
    lastSeq: Value,
    docsChecked: nat,
    docsProcessed: nat,
    changes: seq<Value>,
    phase: Phase)

  const ConfigPrefix := "worker-config/"
  const StatusPrefix := "worker-status/"
  const DesignPrefix := "_design/"

  /** A numeric option is either absent (falsy) or a number. */
  predicate NumericOption(v: Value) {
    !Truthy(v) || v.Num?
  }

  /** Everything the constructor demands, stated at once. */
  predicate ValidConfig(config: Value) {
    var p := Get(config, "processor");
    && config.Obj?
    && Get(config, "name").Str? && Get(config, "name").s != ""
    && Get(config, "server").Str? && Get(config, "server").s != ""
    && p.Obj?
    && Get(p, "process").Func?
    && (!Truthy(Get(p, "check")) || Get(p, "check").Func?)
    && NumericOption(Get(config, "batch_size"))
    && NumericOption(Get(config, "timeout"))
    && NumericOption(Get(config, "since"))
  }

  /** `typeof v === 'number' ? v : fallback` */
  function NumberOr(v: Value, fallback: int): int {
    if v.Num? then v.n else fallback
  }

  /** `new Worker(config, db)`: the checks in the source's order, then the defaults and ids. */
  function Construct(config: Value): (r: Result<Worker, ConfigError>)
    ensures r.Ok? <==> ValidConfig(config)
    ensures !IsObjectType(config) ==> r == Err(ConfigNotObject)
    ensures config.Obj? && !Truthy(Get(config, "name")) ==> r == Err(MissingName)
    ensures config.Obj? && Get(config, "name").Str? && Get(config, "name").s != "" && !Truthy(Get(config, "server")) ==>
      r == Err(MissingServer)
    ensures r.Ok? ==>
      && Str(r.value.settings.name) == Get(config, "name")
      && r.value.settings.configId == ConfigPrefix + r.value.settings.name
      && r.value.settings.statusId == StatusPrefix + r.value.settings.name
      && r.value.settings.hasCheck == Get(Get(config, "processor"), "check").Func?
      && r.value.phase == FetchingConfig
      && r.value.config == Undefined && r.value.status == Undefined
    ensures r.Ok? && !Truthy(Get(config, "batch_size")) && !Get(config, "batch_size").Num? ==> r.value.settings.batchSize == 10
    ensures r.Ok? && Get(config, "batch_size").Num? ==> r.value.settings.batchSize == Get(config, "batch_size").n
    ensures r.Ok? && !Get(config, "timeout").Num? ==> r.value.settings.timeout == 60000
    ensures r.Ok? && Get(config, "timeout").Num? ==> r.value.settings.timeout == Get(config, "timeout").n
    ensures r.Ok? && !Truthy(Get(config, "since")) ==> r.value.settings.since == 0
    ensures r.Ok? && Truthy(Get(config, "since")) ==> r.value.settings.since == Get(config, "since").n
  {
    if !IsObjectType(config) then Err(ConfigNotObject)
    else if config.Null? then Err(ConfigNull)
    else
      var name := Get(config, "name");
      if !Truthy(name) then Err(MissingName)
      else if !name.Str? then Err(NameNotString)
      else
        var server := Get(config, "server");
        if !Truthy(server) then Err(MissingServer)
        else if !server.Str? then Err(ServerNotString)
        else
          var p := Get(config, "processor");
          if !IsObjectType(p) then Err(ProcessorNotObject)
          else if p.Null? then Err(ProcessorNull)
          else if !Get(p, "process").Func? then Err(MissingProcess)
          else if Truthy(Get(p, "check")) && !Get(p, "check").Func? then Err(CheckNotFunction)
          else
            var batchSize := Get(config, "batch_size");
            var timeout := Get(config, "timeout");
            var since := Get(config, "since");
            if !NumericOption(batchSize) then Err(BatchSizeNotNumber)
            else if !NumericOption(timeout) then Err(TimeoutNotNumber)
            else if !NumericOption(since) then Err(SinceNotNumber)
            else
              Ok(Worker(Settings(name.s, server.s, ConfigPrefix + name.s, StatusPrefix + name.s,
                                 NumberOr(batchSize, 10), NumberOr(timeout, 60000), if Truthy(since) then since.n else 0,
                                 Get(p, "check").Func?), Undefined, Undefined, Undefined, 0, 0, [], FetchingConfig))
  }

  /** The two reserved ids differ from each other and from every design document's id. */
  lemma ReservedIdsDistinct(w: Worker)
    requires w.settings.configId == ConfigPrefix + w.settings.name && w.settings.statusId == StatusPrefix + w.settings.name
    ensures w.settings.configId != w.settings.statusId
    ensures StartsWith(w.settings.configId, ConfigPrefix) && !StartsWith(w.settings.configId, StatusPrefix)
    ensures StartsWith(w.settings.statusId, StatusPrefix) && !StartsWith(w.settings.statusId, ConfigPrefix)
    ensures !StartsWith(w.settings.configId, DesignPrefix) && !StartsWith(w.settings.statusId, DesignPrefix)
  {
    assert w.settings.configId[7] != w.settings.statusId[7];
    assert w.settings.configId[..|ConfigPrefix|] == ConfigPrefix;
    assert w.settings.statusId[..|StatusPrefix|] == StatusPrefix;
  }

  // ---------------------------------------------------------------------
  // Responses

  /** One HTTP reply: the transport error (`null` when none), the status code and the parsed body. */
  datatype Reply = Reply(error: Value, statusCode: int, data: Value)

  /**
   `_checkResponse(error, resp, data, msg)`: `null` for a usable reply, else
   an object naming the failure.
   */
  function CheckResponse(reply: Reply, msg: string): (p: Value)
    ensures p == Null <==> StrictEquals(reply.error, Null) && reply.statusCode < 400 && IsObjectType(reply.data)
    ensures p != Null ==> p.Obj? && Get(p, "msg") == Str(if msg == "" then "in response" else msg)
    ensures !StrictEquals(reply.error, Null) ==> Get(p, "error") == reply.error && Get(p, "status") == Undefined
    ensures StrictEquals(reply.error, Null) && p != Null ==>
      Get(p, "status") == Num(reply.statusCode) && Get(p, "error") == reply.data
  {
    var m := Str(if msg == "" then "in response" else msg);
    if !StrictEquals(reply.error, Null) then
      With(With(EmptyObject(), "msg", m), "error", reply.error)
    else if reply.statusCode >= 400 || !IsObjectType(reply.data) then
      With(With(With(EmptyObject(), "msg", m), "status", Num(reply.statusCode)), "error", reply.data)
    else Null
  }

  /** A usable reply: `_checkResponse` returned `null`. */
  predicate Usable(reply: Reply, msg: string) {
    !Truthy(CheckResponse(reply, msg))
  }

  // ---------------------------------------------------------------------
  // Start-up and the resume cursor

  /** The `since` value `_listen` chooses: the status's `last_seq`, else the configured `since`, else the last batch's. */
  function Cursor(w: Worker): (c: Value)
    ensures Truthy(Get(w.status, "last_seq")) ==> c == Get(w.status, "last_seq")
    ensures !Truthy(Get(w.status, "last_seq")) && w.settings.since != 0 ==> c == Num(w.settings.since)
    ensures !Truthy(Get(w.status, "last_seq")) && w.settings.since == 0 ==> c == w.lastSeq
  {
    Or(Or(And(w.status, Get(w.status, "last_seq")), Num(w.settings.since)), w.lastSeq)
  }

  /** `_listen()`: request the next batch, passing `since` only when the cursor is truthy. */
  function Listen(w: Worker): (r: Worker)
    ensures r.phase.Listening? && r == w.(phase := r.phase)
    ensures r.phase.since.Some? <==> Truthy(Cursor(w))
    ensures r.phase.since.Some? ==> r.phase.since.value == Cursor(w)
  {
    var c := Cursor(w);
    w.(phase := Listening(if Truthy(c) then Some(c) else None))
  }

  /** A fetched document is kept when the reply is below 400 and its body is of type object. */
  predicate Fetched(reply: Reply) {
    reply.statusCode < 400 && IsObjectType(reply.data)
  }

  /** The configuration document's reply: a transport error stops the worker, anything else goes on to the status. */
  function OnConfig(w: Worker, reply: Reply): (r: Worker)
    requires w.phase.FetchingConfig?
    ensures !StrictEquals(reply.error, Null) ==> r == w.(phase := Stopped)
    ensures StrictEquals(reply.error, Null) ==>
      r.phase.FetchingStatus? && r.config == (if Fetched(reply) then reply.data else w.config)
    ensures r == w.(phase := r.phase, config := r.config)
  {
    if !StrictEquals(reply.error, Null) then w.(phase := Stopped)
    else (if Fetched(reply) then w.(config := reply.data) else w).(phase := FetchingStatus)
  }

  /** The status document's reply: a transport error stops the worker, anything else starts listening. */
  function OnStatus(w: Worker, reply: Reply): (r: Worker)
    requires w.phase.FetchingStatus?
    ensures !StrictEquals(reply.error, Null) ==> r == w.(phase := Stopped)
    ensures StrictEquals(reply.error, Null) ==>
      r.phase.Listening? && r.status == (if Fetched(reply) then reply.data else w.status)
    ensures r == w.(phase := r.phase, status := r.status)
  {
    if !StrictEquals(reply.error, Null) then w.(phase := Stopped)
    else Listen(if Fetched(reply) then w.(status := reply.data) else w)
  }

  // ---------------------------------------------------------------------
  // Document transformations

  /** `doc.worker_status[name].status` is set. */
  predicate OwnStatusSet(doc: Value, name: string) {
    Truthy(Get(Entry(doc, name), "status"))
  }

  /** What `_check` decides and whether it counted the document in `docs_checked`. */
  datatype Verdict = Verdict(pass: Value, counted: bool) | CheckCrash

  /**
   `_check(doc)`: without a configuration nothing passes; the worker's own
   configuration and status documents are passed over uncounted; every other
   document is counted; design documents and documents carrying a status of
   this worker's are refused; the rest is the user's `check`, or accepted
   when there is none. Other workers' entries are never looked at.
   */
  function Check(config: Value, name: string, hasCheck: bool, check: Value -> Value, doc: Value): (r: Verdict)
    ensures !Truthy(config) ==> r == Verdict(Bool(false), false)
    ensures Truthy(config) ==> (r.CheckCrash? <==> !Get(doc, "_id").Str?)
    ensures r.Verdict? && r.counted ==> Get(doc, "_id").Str?
    ensures r.Verdict? && Get(doc, "_id").Str? && Truthy(config) ==>
      (r.counted <==> !StartsWith(IdOf(doc), ConfigPrefix) && !StartsWith(IdOf(doc), StatusPrefix))
    ensures r.Verdict? && Truthy(r.pass) ==>
      && Truthy(config) && doc.Obj?
      && !StartsWith(IdOf(doc), ConfigPrefix) && !StartsWith(IdOf(doc), StatusPrefix)
      && !StartsWith(IdOf(doc), DesignPrefix)
      && !OwnStatusSet(doc, name)
    ensures Truthy(config) && Get(doc, "_id").Str? && r.counted
            && !StartsWith(IdOf(doc), DesignPrefix) && !OwnStatusSet(doc, name) ==>
      r.pass == (if hasCheck then check(doc) else Bool(true))
  {
    if !Truthy(config) then Verdict(Bool(false), false)
    else if !Get(doc, "_id").Str? then CheckCrash
    else
      var id := IdOf(doc);
      if StartsWith(id, ConfigPrefix) || StartsWith(id, StatusPrefix) then Verdict(Bool(false), false)
      else if StartsWith(id, DesignPrefix) then Verdict(Bool(false), true)
      else if OwnStatusSet(doc, name) then Verdict(Bool(false), true)
      else Verdict(if hasCheck then check(doc) else Bool(true), true)
  }

  /**
   `_setWorkerStatus(doc, status)`: create the map and the own entry when
   falsy, drop the entry's `status`, then copy the given status's fields
   over it. `None` when the map is a truthy non-object, where the source
   throws.
   */
  function SetWorkerStatus(doc: Value, name: string, status: Value): (r: Option<Value>)
    requires doc.Obj?
    ensures r.None? <==> Truthy(StatusObject(doc)) && !StatusObject(doc).Obj?
    ensures r.Some? ==> r.value.Obj? && StatusObject(r.value).Obj?
    ensures r.Some? ==> forall k :: k != StatusKey ==> Get(r.value, k) == Get(doc, k)
    ensures r.Some? ==> forall k :: k != name ==> Entry(r.value, k) == Entry(doc, k)
  {
    var ws := if Truthy(StatusObject(doc)) then StatusObject(doc) else EmptyObject();
    if !ws.Obj? then None
    else
      var entry := if Truthy(Get(ws, name)) then Get(ws, name) else EmptyObject();
      Some(With(doc, StatusKey, With(ws, name, ExtendValue(Without(entry, "status"), status))))
  }

  /** The own entry after `_setWorkerStatus` with an object status: its fields win, the old `status` is gone, the rest stays. */
  lemma SetWorkerStatusEntry(doc: Value, name: string, status: Value, f: string)
    requires doc.Obj? && status.Obj?
    requires !Truthy(StatusObject(doc)) || StatusObject(doc).Obj?
    requires !Truthy(Entry(doc, name)) || Entry(doc, name).Obj?
    ensures var e := Entry(SetWorkerStatus(doc, name, status).value, name);
      && e.Obj?
      && (f in Keys(status) ==> Get(e, f) == Get(status, f))
      && (f !in Keys(status) && f == "status" ==> Get(e, f) == Undefined)
      && (f !in Keys(status) && f != "status" ==> Get(e, f) == Get(Entry(doc, name), f))
  {
    var ws := if Truthy(StatusObject(doc)) then StatusObject(doc) else EmptyObject();
    var entry := if Truthy(Get(ws, name)) then Get(ws, name) else EmptyObject();
    ExtendWithObject(Without(entry, "status"), status, f);
  }

  /** The claim `_process` writes: the own entry becomes `{status: 'triggered'}` over whatever else it had. */
  function ClaimStatus(): (v: Value)
    ensures v.Obj? && Get(v, "status") == Str(Triggered)
    ensures forall f :: f != "status" ==> Get(v, f) == Undefined
  {
    With(EmptyObject(), "status", Str(Triggered))
  }

  /** `_process`'s claim marks the own entry `triggered` when the map and the entry are objects or absent. */
  lemma ClaimMarks(doc: Value, name: string)
    requires doc.Obj?
    requires !Truthy(StatusObject(doc)) || StatusObject(doc).Obj?
    ensures !Truthy(Entry(doc, name)) || Entry(doc, name).Obj? ==>
      TriggeredBy(SetWorkerStatus(doc, name, ClaimStatus()).value, name)
  {
    if !Truthy(Entry(doc, name)) || Entry(doc, name).Obj? {
      assert "status" in Keys(ClaimStatus());
      SetWorkerStatusEntry(doc, name, ClaimStatus(), "status");
    }
  }

  /** `_mergeResult(doc, attributes)`: a shallow `_.extend` with an object-typed result; anything else is ignored. */
  function MergeResult(doc: Value, attributes: Value): (r: Value)
    ensures !IsObjectType(attributes) ==> r == doc
    ensures doc.Obj? <==> r.Obj?
  {
    if IsObjectType(attributes) then ExtendValue(doc, attributes) else doc
  }

  /** With an object result, each of its top-level keys replaces the document's value whole; other keys stay. */
  lemma MergeIsShallow(doc: Value, attributes: Value, k: string)
    requires doc.Obj? && attributes.Obj?
    ensures k in Keys(attributes) ==> Get(MergeResult(doc, attributes), k) == Get(attributes, k)
    ensures k !in Keys(attributes) ==> Get(MergeResult(doc, attributes), k) == Get(doc, k)
  {
    ExtendWithObject(doc, attributes, k);
  }

  /** The status `_process`'s done callback commits: the given one, else `error` or `completed`. */
  function Outcome(error: Value, status: Value): (r: Value)
    ensures Truthy(status) ==> r == status
    ensures !Truthy(status) ==> Get(r, "status") == Str(if Truthy(error) then "error" else "completed")
    ensures !Truthy(status) ==> forall f :: f != "status" ==> Get(r, f) == Undefined
  {
    Or(status, With(EmptyObject(), "status", Str(if Truthy(error) then "error" else "completed")))
  }

  /** `_commit`'s document: the outcome set first, then the result merged, so result keys win. */
  function CommitDoc(doc: Value, name: string, attributes: Value, outcome: Value): (r: Option<Value>)
    requires doc.Obj?
    ensures r.None? <==> SetWorkerStatus(doc, name, outcome).None?
    ensures r.Some? ==> r.value == MergeResult(SetWorkerStatus(doc, name, outcome).value, attributes)
  {
    match SetWorkerStatus(doc, name, outcome)
    case None => None
    case Some(d) => Some(MergeResult(d, attributes))
  }

  /** A result carrying `worker_status` overwrites the whole map, the outcome just written included. */
  lemma ResultKeysWin(doc: Value, name: string, attributes: Value, outcome: Value, k: string)
    requires doc.Obj? && attributes.Obj? && !(Truthy(StatusObject(doc)) && !StatusObject(doc).Obj?)
    requires k in Keys(attributes)
    ensures Get(CommitDoc(doc, name, attributes, outcome).value, k) == Get(attributes, k)
  {
    MergeIsShallow(SetWorkerStatus(doc, name, outcome).value, attributes, k);
  }

  /**
   The committed document carries the outcome: unless the result itself names
   `worker_status`, the own entry holds every field of the outcome and every
   other worker's entry is kept; every key neither the outcome's map nor the
   result names keeps the document's value.
   */
  lemma CommitRecordsOutcome(doc: Value, name: string, attributes: Value, outcome: Value, f: string, other: string, key: string)
    requires doc.Obj? && outcome.Obj?
    requires !Truthy(StatusObject(doc)) || StatusObject(doc).Obj?
    requires !Truthy(Entry(doc, name)) || Entry(doc, name).Obj?
    ensures CommitDoc(doc, name, attributes, outcome).Some?
    ensures var r := CommitDoc(doc, name, attributes, outcome).value;
      !IsObjectType(attributes) || !HasKey(Enumerate(attributes), StatusKey) ==>
        && (f in Keys(outcome) ==> Get(Entry(r, name), f) == Get(outcome, f))
        && (other != name ==> Entry(r, other) == Entry(doc, other))
    ensures var r := CommitDoc(doc, name, attributes, outcome).value;
      key != StatusKey && (!IsObjectType(attributes) || !HasKey(Enumerate(attributes), key)) ==>
        Get(r, key) == Get(doc, key)
  {
    SetWorkerStatusEntry(doc, name, outcome, f);
  }

  /** Without a status from `process`, the committed own entry says `error` or `completed`, as `process` reported. */
  lemma DefaultOutcomeCommitted(doc: Value, name: string, error: Value, attributes: Value, status: Value)
    requires doc.Obj? && !Truthy(status)
    requires !Truthy(StatusObject(doc)) || StatusObject(doc).Obj?
    requires !Truthy(Entry(doc, name)) || Entry(doc, name).Obj?
    requires !IsObjectType(attributes) || !HasKey(Enumerate(attributes), StatusKey)
    ensures Get(Entry(CommitDoc(doc, name, attributes, Outcome(error, status)).value, name), "status")
            == Str(if Truthy(error) then "error" else "completed")
  {
    var outcome := Outcome(error, status);
    assert "status" in Keys(outcome);
    CommitRecordsOutcome(doc, name, attributes, outcome, "status", name, StatusKey);
  }

  /** `_reset`'s document: the own entry deleted from a truthy `worker_status`. */
  function ClearOwnStatus(doc: Value, name: string): (r: Value)
    ensures StatusObject(doc).Obj? ==> !Truthy(Entry(r, name))
    ensures forall k :: k != StatusKey ==> Get(r, k) == Get(doc, k)
    ensures forall k :: k != name ==> Entry(r, k) == Entry(doc, k)
  {
    var ws := StatusObject(doc);
    if Truthy(ws) then With(doc, StatusKey, Without(ws, name)) else doc
  }

  // ---------------------------------------------------------------------
  // The batch loop

  /** `x || (x = 0); x += n` on a counter. */
  function AddCount(x: Value, n: nat): (r: Value)
    ensures !Truthy(x) ==> r == Num(n)
    ensures x.Num? ==> r == Num(x.n + n)
  {
    match Or(x, Num(0))
    case Num(m) => Num(m + n)
    case Bool(_) => Num(1 + n)
    case Str(s) => Str(s + NatToString(n))
    case Obj(_, _) => Str("[object Object]" + NatToString(n))
    case other => other
  }

  /** A counter the checkpoint adds to as a number: absent or numeric. */
  function CountOf(x: Value): Option<int> {
    if !Truthy(x) then Some(0) else if x.Num? then Some(x.n) else None
  }

  /**
   `_changesDone()`: with nothing checked, listen again; otherwise fold the
   batch into the status document (created when absent) and store it.
   */
  function ChangesDone(w: Worker): (r: Worker)
    ensures w.docsChecked == 0 ==> r == Listen(w)
    ensures w.docsChecked != 0 ==> r.phase.StoringStatus? && r == w.(status := r.status, phase := StoringStatus)
  {
    if w.docsChecked == 0 then Listen(w)
    else
      var st := Or(w.status, With(EmptyObject(), "_id", Str(w.settings.statusId)));
      var st1 := With(st, "last_seq", w.lastSeq);
      var st2 := With(st1, "docs_checked", AddCount(Get(st1, "docs_checked"), w.docsChecked));
      var st3 := With(st2, "docs_processed", AddCount(Get(st2, "docs_processed"), w.docsProcessed));
      w.(status := st3, phase := StoringStatus)
  }

  /**
   The checkpoint's status document: created with the status id when absent,
   the batch's `last_seq` recorded, and each numeric counter raised by
   exactly the batch's count.
   */
  lemma CheckpointCounts(w: Worker)
    requires w.docsChecked != 0
    ensures !Truthy(w.status) ==> IdOf(ChangesDone(w).status) == w.settings.statusId
    ensures w.status.Obj? || !Truthy(w.status) ==>
      var st := ChangesDone(w).status;
      && Get(st, "last_seq") == w.lastSeq
      && (CountOf(Get(w.status, "docs_checked")).Some? ==>
            CountOf(Get(st, "docs_checked")) == Some(CountOf(Get(w.status, "docs_checked")).value + w.docsChecked))
      && (CountOf(Get(w.status, "docs_processed")).Some? ==>
            CountOf(Get(st, "docs_processed")) == Some(CountOf(Get(w.status, "docs_processed")).value + w.docsProcessed))
  {
  }

  /** The checkpoint never lowers a numeric counter. */
  lemma CountersNeverDecrease(w: Worker)
    requires w.docsChecked != 0 && (w.status.Obj? || !Truthy(w.status))
    requires CountOf(Get(w.status, "docs_checked")).Some? && CountOf(Get(w.status, "docs_processed")).Some?
    ensures CountOf(Get(ChangesDone(w).status, "docs_checked")).value >= CountOf(Get(w.status, "docs_checked")).value
    ensures CountOf(Get(ChangesDone(w).status, "docs_processed")).value >= CountOf(Get(w.status, "docs_processed")).value
  {
    CheckpointCounts(w);
  }

  /** The next change's document has just been taken off the end of the batch. */
  predicate Done(w: Worker) {
    w.phase.Listening? || w.phase.StoringStatus?
  }

  /** `_process(doc)`: mark the document `triggered` and write it. */
  function Process(w: Worker, doc: Value): (r: Worker)
    requires doc.Obj?
    ensures r.phase.Claiming? || r.phase.Crashed?
    ensures r == w.(phase := r.phase)
    ensures r.phase.Claiming? ==>
      && (!Truthy(Entry(doc, w.settings.name)) || Entry(doc, w.settings.name).Obj? ==> TriggeredBy(r.phase.doc, w.settings.name))
      && (forall k :: k != StatusKey ==> Get(r.phase.doc, k) == Get(doc, k))
      && (forall k :: k != w.settings.name ==> Entry(r.phase.doc, k) == Entry(doc, k))
  {
    match SetWorkerStatus(doc, w.settings.name, ClaimStatus())
    case None => w.(phase := Crashed)
    case Some(d) =>
      ClaimMarks(doc, w.settings.name);
      w.(phase := Claiming(d))
  }

  /** What handling one popped change leads to. */
  datatype Next = Skip | EndOfBatch | Halt

  /** The claim `_nextChange` starts on change `c`: everything that let its document through. */
  predicate ClaimedFrom(s: Settings, config: Value, check: Value -> Value, c: Value, claimed: Value) {
    var doc := Get(c, "doc");
    && !Truthy(Get(c, "deleted"))
    && !StrictEquals(Get(c, "id"), Str(s.configId))
    && !StrictEquals(Get(c, "id"), Str(s.statusId))
    && Check(config, s.name, s.hasCheck, check, doc).Verdict?
    && Truthy(Check(config, s.name, s.hasCheck, check, doc).pass)
    && (!Truthy(Entry(doc, s.name)) || Entry(doc, s.name).Obj? ==> TriggeredBy(claimed, s.name))
    && IdOf(claimed) == IdOf(doc)
  }

  /** The worker fields a change never touches. */
  predicate SameWorker(w: Worker, r: Worker) {
    && r.settings == w.settings
    && r.docsProcessed == w.docsProcessed && r.lastSeq == w.lastSeq
  }

  /** The batch without its last change. */
  function Popped(w: Worker): Worker
    requires |w.changes| > 0
  {
    w.(changes := w.changes[..|w.changes| - 1])
  }

  /** What a change of a reserved document leaves in the in-memory copy: its document, or nothing when deleted. */
  function Installed(c: Value): Value {
    if Truthy(Get(c, "deleted")) then Undefined else Get(c, "doc")
  }

  /**
   The change `_nextChange` stops at: a truthy change of neither reserved
   document, not a deletion, whose document `_check` passes or throws on.
   */
  predicate Stops(s: Settings, config: Value, check: Value -> Value, c: Value) {
    var v := Check(config, s.name, s.hasCheck, check, Get(c, "doc"));
    && Truthy(c)
    && !StrictEquals(Get(c, "id"), Str(s.configId))
    && !StrictEquals(Get(c, "id"), Str(s.statusId))
    && !Truthy(Get(c, "deleted"))
    && (v.CheckCrash? || Truthy(v.pass))
  }

  /** One round of `_nextChange()`: pop the last change and decide what it leads to. */
  function TakeChange(w: Worker, check: Value -> Value): (r: (Worker, Next))
    requires |w.changes| > 0
    ensures r.0.changes == w.changes[..|w.changes| - 1]
    ensures SameWorker(w, r.0)
    ensures w.docsChecked <= r.0.docsChecked <= w.docsChecked + 1
    ensures r.1 == EndOfBatch <==> !Truthy(w.changes[|w.changes| - 1])
    ensures r.1 == Halt <==> Stops(w.settings, w.config, check, w.changes[|w.changes| - 1])
    ensures r.1 == Halt ==> r.0.phase.Claiming? || r.0.phase.Crashed?
    ensures r.1 == Halt && r.0.phase.Claiming? ==>
      ClaimedFrom(w.settings, r.0.config, check, w.changes[|w.changes| - 1], r.0.phase.doc)
  {
    var change := w.changes[|w.changes| - 1];
    var rest := Popped(w);
    if !Truthy(change) then (rest, EndOfBatch)
    else if StrictEquals(Get(change, "id"), Str(w.settings.configId)) then (rest.(config := Installed(change)), Skip)
    else if StrictEquals(Get(change, "id"), Str(w.settings.statusId)) then (rest.(status := Installed(change)), Skip)
    else if Truthy(Get(change, "deleted")) then (rest, Skip)
    else
      var doc := Get(change, "doc");
      match Check(w.config, w.settings.name, w.settings.hasCheck, check, doc)
      case CheckCrash => (rest.(phase := Crashed), Halt)
      case Verdict(pass, counted) =>
        var counted' := if counted then rest.(docsChecked := rest.docsChecked + 1) else rest;
        if Truthy(pass) then (Process(counted', doc), Halt) else (counted', Skip)
  }

  /**
   `_nextChange()`: pop changes off the end of the batch until one is
   claimed or the batch ends; a falsy change ends it early. The worker's own
   configuration and status documents replace the in-memory copies (deleted
   ones clear them) and deleted documents are skipped.
   */
  function NextChange(w: Worker, check: Value -> Value): (r: Worker)
    decreases |w.changes|
    ensures |r.changes| <= |w.changes| && r.changes == w.changes[..|r.changes|]
    ensures |w.changes| > 0 ==> |r.changes| < |w.changes|
    ensures |w.changes| == 0 ==> Done(r)
    ensures Done(r) || r.phase.Claiming? || r.phase.Crashed?
    ensures Done(r) ==> r.changes == [] || !Truthy(w.changes[|r.changes|])
    ensures Done(r) ==> (r.phase.StoringStatus? <==> r.docsChecked != 0)
    ensures r.phase.Claiming? ==> ClaimedFrom(w.settings, r.config, check, w.changes[|r.changes|], r.phase.doc)
    ensures w.docsChecked <= r.docsChecked <= w.docsChecked + (|w.changes| - |r.changes|)
    ensures SameWorker(w, r)
  {
    if |w.changes| == 0 then ChangesDone(w)
    else
      var (w', next) := TakeChange(w, check);
      match next
      case EndOfBatch => ChangesDone(w')
      case Halt => w'
      case Skip =>
        var r := NextChange(w', check);
        assert |r.changes| < |w'.changes| ==> w'.changes[|r.changes|] == w.changes[|r.changes|];
        r
  }

  /**
   A change that passes every filter is where the walk stops: it is popped,
   counted when `_check` counts it, and handed to `_process`; when `_check`
   throws, the worker crashes right there.
   */
  lemma PassingChangeClaimed(w: Worker, check: Value -> Value)
    requires |w.changes| > 0 && Stops(w.settings, w.config, check, w.changes[|w.changes| - 1])
    ensures var doc := Get(w.changes[|w.changes| - 1], "doc");
      match Check(w.config, w.settings.name, w.settings.hasCheck, check, doc)
      case CheckCrash => NextChange(w, check) == Popped(w).(phase := Crashed)
      case Verdict(_, counted) =>
        NextChange(w, check) == Process(Popped(w).(docsChecked := w.docsChecked + (if counted then 1 else 0)), doc)
  {
    assert TakeChange(w, check).1 == Halt;
    assert NextChange(w, check) == TakeChange(w, check).0;
  }

  /** A deleted change of neither reserved document is popped uncounted, and the walk goes on. */
  lemma DeletedChangeSkipped(w: Worker, check: Value -> Value)
    requires |w.changes| > 0
    requires var c := w.changes[|w.changes| - 1];
      && Truthy(c) && !StrictEquals(Get(c, "id"), Str(w.settings.configId))
      && !StrictEquals(Get(c, "id"), Str(w.settings.statusId))
      && Truthy(Get(c, "deleted"))
    ensures NextChange(w, check) == NextChange(Popped(w), check)
  {
    assert TakeChange(w, check) == (Popped(w), Skip);
    SkipGoesOn(w, check);
  }

  /**
   A truthy change of neither reserved document, not a deletion, that the
   worker does not stop at is one `_check` refuses: it is popped, counted when
   `_check` counts it, and the walk goes on.
   */
  lemma RefusedChangeSkipped(w: Worker, check: Value -> Value)
    requires |w.changes| > 0
    requires var c := w.changes[|w.changes| - 1];
      && Truthy(c) && !StrictEquals(Get(c, "id"), Str(w.settings.configId))
      && !StrictEquals(Get(c, "id"), Str(w.settings.statusId))
      && !Truthy(Get(c, "deleted"))
      && !Stops(w.settings, w.config, check, c)
    ensures var v := Check(w.config, w.settings.name, w.settings.hasCheck, check, Get(w.changes[|w.changes| - 1], "doc"));
      && v.Verdict? && !Truthy(v.pass)
      && NextChange(w, check) == NextChange(Popped(w).(docsChecked := w.docsChecked + (if v.counted then 1 else 0)), check)
  {
    RefusedTaken(w, check);
    SkipGoesOn(w, check);
  }

  /** The round that takes a refused change: popped, counted when `_check` counts it, skipped. */
  lemma RefusedTaken(w: Worker, check: Value -> Value)
    requires |w.changes| > 0
    requires var c := w.changes[|w.changes| - 1];
      var v := Check(w.config, w.settings.name, w.settings.hasCheck, check, Get(c, "doc"));
      && Truthy(c) && !StrictEquals(Get(c, "id"), Str(w.settings.configId))
      && !StrictEquals(Get(c, "id"), Str(w.settings.statusId))
      && !Truthy(Get(c, "deleted"))
      && v.Verdict? && !Truthy(v.pass)
    ensures var v := Check(w.config, w.settings.name, w.settings.hasCheck, check, Get(w.changes[|w.changes| - 1], "doc"));
      TakeChange(w, check) == (Popped(w).(docsChecked := w.docsChecked + (if v.counted then 1 else 0)), Skip)
  {
  }

  /** A round that skips leaves the rest of the walk to the popped worker. */
  lemma SkipGoesOn(w: Worker, check: Value -> Value)
    requires |w.changes| > 0 && TakeChange(w, check).1 == Skip
    ensures NextChange(w, check) == NextChange(TakeChange(w, check).0, check)
  {
  }

  /**
   The walk ends through `_changesDone` when the batch is empty or its last
   change is falsy: the batch's counts go into a checkpoint when anything was
   checked, and otherwise the worker listens again.
   */
  lemma EndOfBatchCheckpoints(w: Worker, check: Value -> Value)
    requires |w.changes| == 0 || !Truthy(w.changes[|w.changes| - 1])
    ensures NextChange(w, check) == ChangesDone(if |w.changes| == 0 then w else Popped(w))
    ensures NextChange(w, check).phase.StoringStatus? <==> w.docsChecked != 0
    ensures w.docsChecked == 0 ==> NextChange(w, check).phase.Listening?
  {
  }

  /**
   Taking a change of a reserved document: the configuration's replaces the
   configuration, the status's (when it is not also the configuration's)
   replaces the status; either way the round skips on with nothing else
   changed.
   */
  lemma ReservedChangeTaken(w: Worker, check: Value -> Value)
    requires |w.changes| > 0 && Truthy(w.changes[|w.changes| - 1])
    ensures var c := w.changes[|w.changes| - 1];
      StrictEquals(Get(c, "id"), Str(w.settings.configId)) ==>
        TakeChange(w, check) == (Popped(w).(config := Installed(c)), Skip)
    ensures var c := w.changes[|w.changes| - 1];
      !StrictEquals(Get(c, "id"), Str(w.settings.configId)) && StrictEquals(Get(c, "id"), Str(w.settings.statusId)) ==>
        TakeChange(w, check) == (Popped(w).(status := Installed(c)), Skip)
  {
  }

  /**
   Wherever it sits in a batch, a change of the configuration document
   replaces the configuration (a deleted one clears it) and the walk goes on
   with the rest of the batch, nothing claimed and nothing counted.
   */
  lemma ConfigChangeInstalled(w: Worker, check: Value -> Value)
    requires |w.changes| > 0
    requires Truthy(w.changes[|w.changes| - 1])
    requires StrictEquals(Get(w.changes[|w.changes| - 1], "id"), Str(w.settings.configId))
    ensures NextChange(w, check) == NextChange(Popped(w).(config := Installed(w.changes[|w.changes| - 1])), check)
  {
    ReservedChangeTaken(w, check);
  }

  /**
   Wherever it sits in a batch, a change of the status document replaces the
   in-memory status (a deleted one clears it) and the walk goes on with the
   rest of the batch. The configuration branch never takes it, since the two
   reserved ids differ.
   */
  lemma StatusChangeInstalled(w: Worker, check: Value -> Value)
    requires w.settings.configId == ConfigPrefix + w.settings.name && w.settings.statusId == StatusPrefix + w.settings.name
    requires |w.changes| > 0
    requires Truthy(w.changes[|w.changes| - 1])
    requires StrictEquals(Get(w.changes[|w.changes| - 1], "id"), Str(w.settings.statusId))
    ensures NextChange(w, check) == NextChange(Popped(w).(status := Installed(w.changes[|w.changes| - 1])), check)
  {
    ReservedIdsDistinct(w);
    ReservedChangeTaken(w, check);
  }

  /** In a batch of any length, the change a claim is started on is never a deletion, nor the worker's own configuration or status. */
  lemma DeletedNeverClaimed(w: Worker, check: Value -> Value)
    ensures var r := NextChange(w, check);
      r.phase.Claiming? ==>
        var c := w.changes[|r.changes|];
        && !Truthy(Get(c, "deleted"))
        && !StrictEquals(Get(c, "id"), Str(w.settings.configId))
        && !StrictEquals(Get(c, "id"), Str(w.settings.statusId))
        && IdOf(r.phase.doc) == IdOf(Get(c, "doc"))
  {
  }

  // ---------------------------------------------------------------------
  // The callbacks

  /** `_onchanges`: a failed read stops; otherwise reset the batch counts, remember `last_seq` and start on the batch. */
  function OnChanges(w: Worker, reply: Reply, check: Value -> Value): (r: Worker)
    requires w.phase.Listening?
    ensures !Usable(reply, "get changes feed") ==> r == w.(phase := Stopped)
    ensures Usable(reply, "get changes feed") && !Get(reply.data, "results").Arr? ==> r.phase.Crashed?
    ensures Usable(reply, "get changes feed") && Get(reply.data, "results").Arr? ==>
      var items := Get(reply.data, "results").items;
      && r.lastSeq == Get(reply.data, "last_seq")
      && r.docsProcessed == 0
      && r.docsChecked <= |items|
      && |r.changes| <= |items| && r.changes == items[..|r.changes|]
      && (|items| > 0 ==> |r.changes| < |items|)
      && (|items| == 0 ==> r.phase.Listening?)
      && (Done(r) || r.phase.Claiming? || r.phase.Crashed?)
      && (Done(r) ==> (r.phase.StoringStatus? <==> r.docsChecked != 0))
      && (r.phase.Claiming? ==> ClaimedFrom(w.settings, r.config, check, items[|r.changes|], r.phase.doc))
  {
    if !Usable(reply, "get changes feed") then w.(phase := Stopped)
    else
      var results := Get(reply.data, "results");
      var batch := w.(docsProcessed := 0, docsChecked := 0, lastSeq := Get(reply.data, "last_seq"));
      if !results.Arr? then batch.(phase := Crashed)
      else NextChange(batch.(changes := results.items), check)
  }

  /** A usable batch is walked from a fresh count: the walk is `_nextChange` over the reply's `results`. */
  lemma OnChangesWalksResults(w: Worker, reply: Reply, check: Value -> Value)
    requires w.phase.Listening? && Usable(reply, "get changes feed") && Get(reply.data, "results").Arr?
    ensures OnChanges(w, reply, check) ==
      NextChange(w.(docsProcessed := 0, docsChecked := 0, lastSeq := Get(reply.data, "last_seq"),
                    changes := Get(reply.data, "results").items), check)
  {
  }

  /** The claim's reply: a failure moves on to the next change; success hands the document, with its new `_rev`, to `process`. */
  function OnClaimed(w: Worker, reply: Reply, check: Value -> Value): (r: Worker)
    requires w.phase.Claiming?
    ensures !Usable(reply, "grab doc") ==> r == NextChange(w, check)
    ensures Usable(reply, "grab doc") && !reply.data.Null? ==>
      r == w.(phase := Processing(With(w.phase.doc, "_rev", Get(reply.data, "rev"))))
    ensures Usable(reply, "grab doc") && reply.data.Null? ==> r.phase.Crashed?
  {
    if !Usable(reply, "grab doc") then NextChange(w, check)
    else if reply.data.Null? then w.(phase := Crashed)
    else w.(phase := Processing(With(w.phase.doc, "_rev", Get(reply.data, "rev"))))
  }

  /**
   `process`'s done callback: count the document and commit its outcome and
   result. `processed` is the document `process` was handed, as it stands
   when `process` calls back: `process` may have changed any of its fields in
   place, and the commit writes those changes too.
   */
  function OnProcessed(w: Worker, processed: Value, error: Value, attributes: Value, status: Value): (r: Worker)
    requires w.phase.Processing? && processed.Obj?
    ensures r.docsProcessed == w.docsProcessed + 1
    ensures r.phase.Committing? || r.phase.Crashed?
    ensures r.phase.Committing? ==> Some(r.phase.doc) == CommitDoc(processed, w.settings.name, attributes, Outcome(error, status))
    ensures r.phase.Crashed? <==> CommitDoc(processed, w.settings.name, attributes, Outcome(error, status)).None?
  {
    var counted := w.(docsProcessed := w.docsProcessed + 1);
    match CommitDoc(processed, w.settings.name, attributes, Outcome(error, status))
    case None => counted.(phase := Crashed)
    case Some(d) => counted.(phase := Committing(d))
  }

  /**
   What `process` did to the document is committed: every key the result does
   not name, `worker_status` aside, goes out as `process` left it, and the own
   entry carries the outcome.
   */
  lemma ProcessedEditsCommitted(w: Worker, processed: Value, error: Value, attributes: Value, status: Value, key: string)
    requires w.phase.Processing? && processed.Obj?
    requires !Truthy(StatusObject(processed)) || StatusObject(processed).Obj?
    requires !Truthy(Entry(processed, w.settings.name)) || Entry(processed, w.settings.name).Obj?
    ensures OnProcessed(w, processed, error, attributes, status).phase.Committing?
    ensures var d := OnProcessed(w, processed, error, attributes, status).phase.doc;
      key != StatusKey && (!IsObjectType(attributes) || !HasKey(Enumerate(attributes), key)) ==>
        Get(d, key) == Get(processed, key)
    ensures var d := OnProcessed(w, processed, error, attributes, status).phase.doc;
      !Truthy(status) && (!IsObjectType(attributes) || !HasKey(Enumerate(attributes), StatusKey)) ==>
        Get(Entry(d, w.settings.name), "status") == Str(if Truthy(error) then "error" else "completed")
  {
    var outcome := Outcome(error, status);
    if outcome.Obj? {
      CommitRecordsOutcome(processed, w.settings.name, attributes, outcome, "status", w.settings.name, key);
    } else if attributes.Obj? {
      MergeIsShallow(SetWorkerStatus(processed, w.settings.name, outcome).value, attributes, key);
    }
    if !Truthy(status) && (!IsObjectType(attributes) || !HasKey(Enumerate(attributes), StatusKey)) {
      DefaultOutcomeCommitted(processed, w.settings.name, error, attributes, status);
    }
  }

  /** The commit's reply: a failure resets the document; success moves on to the next change. */
  function OnCommitted(w: Worker, reply: Reply, check: Value -> Value): (r: Worker)
    requires w.phase.Committing?
    ensures !Usable(reply, "commit doc") ==> r == w.(phase := Resetting(w.phase.doc))
    ensures Usable(reply, "commit doc") && !reply.data.Null? ==> r == NextChange(w, check)
    ensures Usable(reply, "commit doc") && reply.data.Null? ==> r.phase.Crashed?
  {
    if !Usable(reply, "commit doc") then w.(phase := Resetting(w.phase.doc))
    else if reply.data.Null? then w.(phase := Crashed)
    else NextChange(w, check)
  }

  /** `_reset`'s read: a failure gives up on the document; otherwise drop the own entry and write it back. */
  function OnResetFetched(w: Worker, reply: Reply, check: Value -> Value): (r: Worker)
    requires w.phase.Resetting?
    ensures !Usable(reply, "fetch doc") ==> r == NextChange(w, check)
    ensures Usable(reply, "fetch doc") && !reply.data.Null? ==>
      r == w.(phase := ResetWriting(ClearOwnStatus(reply.data, w.settings.name)))
    ensures Usable(reply, "fetch doc") && reply.data.Null? ==> r.phase.Crashed?
  {
    if !Usable(reply, "fetch doc") then NextChange(w, check)
    else if reply.data.Null? then w.(phase := Crashed)
    else w.(phase := ResetWriting(ClearOwnStatus(reply.data, w.settings.name)))
  }

  /** `_reset`'s write: a failure starts the reset over from the written document; success moves on. */
  function OnResetWritten(w: Worker, reply: Reply, check: Value -> Value): (r: Worker)
    requires w.phase.ResetWriting?
    ensures !Usable(reply, "commit doc") ==> r == w.(phase := Resetting(w.phase.doc))
    ensures Usable(reply, "commit doc") ==> r == NextChange(w, check)
  {
    if !Usable(reply, "commit doc") then w.(phase := Resetting(w.phase.doc))
    else NextChange(w, check)
  }

  /** The status document's write: a failure stops the worker; success records the new `_rev` and listens again. */
  function OnStatusStored(w: Worker, reply: Reply): (r: Worker)
    requires w.phase.StoringStatus?
    ensures !Usable(reply, "store status") ==> r == w.(phase := Stopped)
    ensures Usable(reply, "store status") && !reply.data.Null? ==>
      r.phase.Listening? && r.status == With(w.status, "_rev", Get(reply.data, "rev"))
    ensures Usable(reply, "store status") && reply.data.Null? ==> r.phase.Crashed?
  {
    if !Usable(reply, "store status") then w.(phase := Stopped)
    else if reply.data.Null? then w.(phase := Crashed)
    else Listen(w.(status := With(w.status, "_rev", Get(reply.data, "rev"))))
  }

  // ---------------------------------------------------------------------
  // No mutual exclusion

  /** Another worker's claim leaves the document passing this worker's `_check`. */
  lemma OthersClaimInvisible(doc: Value, a: string, b: string, config: Value, check: Value -> Value)
    requires a != b && Truthy(config)
    requires WellShaped(doc) && Get(doc, "_id").Str?
    requires !StartsWith(IdOf(doc), ConfigPrefix) && !StartsWith(IdOf(doc), StatusPrefix)
    requires !StartsWith(IdOf(doc), DesignPrefix)
    requires !Truthy(Entry(doc, b))
    ensures Check(config, b, false, check, SetWorkerStatus(doc, a, ClaimStatus()).value) == Verdict(Bool(true), true)
  {
    var first := SetWorkerStatus(doc, a, ClaimStatus()).value;
    assert Get(first, "_id") == Get(doc, "_id");
    assert Entry(first, b) == Entry(doc, b);
  }

  /** A second worker's claim keeps the first one's. */
  lemma SecondClaimKeepsFirst(doc: Value, a: string, b: string)
    requires a != b && doc.Obj? && StatusObject(doc).Obj?
    requires TriggeredBy(doc, a) && !Truthy(Entry(doc, b))
    ensures TriggeredBy(SetWorkerStatus(doc, b, ClaimStatus()).value, a)
    ensures TriggeredBy(SetWorkerStatus(doc, b, ClaimStatus()).value, b)
  {
    var second := SetWorkerStatus(doc, b, ClaimStatus()).value;
    ClaimMarks(doc, b);
    assert Entry(second, a) == Entry(doc, a);
  }

  /**
   `_check` looks only at the worker's own entry: a document another worker
   has claimed still passes, and claiming it leaves two `triggered` entries.
   */
  lemma ClaimsStack(doc: Value, a: string, b: string, config: Value, check: Value -> Value)
    requires a != b && Truthy(config)
    requires WellShaped(doc) && Get(doc, "_id").Str?
    requires !StartsWith(IdOf(doc), ConfigPrefix) && !StartsWith(IdOf(doc), StatusPrefix)
    requires !StartsWith(IdOf(doc), DesignPrefix)
    requires !Truthy(Entry(doc, a)) && !Truthy(Entry(doc, b))
    ensures var first := SetWorkerStatus(doc, a, ClaimStatus()).value;
      && TriggeredBy(first, a)
      && Check(config, b, false, check, first) == Verdict(Bool(true), true)
      && !AtMostOneTriggered(SetWorkerStatus(first, b, ClaimStatus()).value)
  {
    var first := SetWorkerStatus(doc, a, ClaimStatus()).value;
    ClaimMarks(doc, a);
    OthersClaimInvisible(doc, a, b, config, check);
    assert Entry(first, b) == Entry(doc, b);
    SecondClaimKeepsFirst(first, a, b);
    var second := SetWorkerStatus(first, b, ClaimStatus()).value;
    assert TriggeredBy(second, a) && TriggeredBy(second, b);
  }
}

=== FILE: couchdb_worker.dfy ===
/**
 The feed-based worker of `lib/couchdb-worker.js`.

 `listen(options)` validates its options and follows the database's change
 feed. Every change whose document is processable is claimed: the feed is
 paused, the worker's own `worker_status` entry becomes `triggered`, and the
 document is written back under the revision it was read at. Only a
 successful claim hands the document to the user's `process`; its `ondone`
 callback writes `complete` (or `error` with the error payload), reports the
 commit and resumes the feed.

 An `Agent` is one listening worker instance. Its steps take the store and
 return the store as they leave it; the user's `process` is the time between
 `OnChange` and `OnDone`, whose arguments are what it called back with.
 */
module CouchWorker {
  import opened Wrappers
  import opened Json
  import opened StatusMap
  import Store

  // ---------------------------------------------------------------------
  // listen(options): option validation

  /** The exceptions `listen` throws before it subscribes to anything. */
  datatype ListenError =
    | OptionsNotObject   // strict-mode TypeError: `options.follow = ...` on a primitive
    | FollowNotObject    // strict-mode TypeError: `options.follow.include_docs = true` on a primitive
    | MissingId          // 'worker needs an id.'
    | MissingProcess     // 'worker needs a process function.'
    | MissingDb          // the database connector refuses a missing url

  /** A validated worker: its id, its `process` callback, its database, and the options passed on to the feed. */
  datatype Listener = Listener(id: string, process: nat, db: Value, follow: Value)

  /** Booleans, numbers and strings: assigning a property on one throws in strict mode. */
  predicate IsPrimitive(v: Value) {
    v.Bool? || v.Num? || v.Str?
  }

  function Listen(options: Value): (r: Result<Listener, ListenError>)
    ensures !Get(options, "id").Str? ==> r.Err?
    ensures !Get(options, "process").Func? ==> r.Err?
    ensures !Truthy(Get(options, "db")) ==> r.Err?
    ensures r.Ok? ==> Get(options, "id") == Str(r.value.id) && Get(options, "process") == Func(r.value.process)
    ensures r.Ok? ==> r.value.db == Get(options, "db")
    ensures r.Ok? && !Truthy(Get(options, "follow")) ==>
      forall k :: Get(r.value.follow, k) == (if k == "include_docs" then Bool(true) else Undefined)
    ensures r.Ok? && Get(options, "follow").Obj? ==> Get(r.value.follow, "include_docs") == Bool(true)
    ensures r.Ok? <==>
      && options.Obj? && (!Truthy(Get(options, "follow")) || !IsPrimitive(Get(options, "follow")))
      && Get(options, "id").Str? && Get(options, "process").Func? && Truthy(Get(options, "db"))
    ensures (options.Obj? && (!Truthy(Get(options, "follow")) || Get(options, "follow").Obj?)
             && !Get(options, "id").Str?) ==> r == Err(MissingId)
    ensures (options.Obj? && (!Truthy(Get(options, "follow")) || Get(options, "follow").Obj?)
             && Get(options, "id").Str? && Get(options, "process").Func? && !Truthy(Get(options, "db"))) ==> r == Err(MissingDb)
  {
    var opts := Or(options, EmptyObject());
    if IsPrimitive(opts) then Err(OptionsNotObject)
    else
      var follow := Or(Get(opts, "follow"), EmptyObject());
      if IsPrimitive(follow) then Err(FollowNotObject)
      else if !Get(opts, "id").Str? then Err(MissingId)
      else if !Get(opts, "process").Func? then Err(MissingProcess)
      else if !Truthy(Get(opts, "db")) then Err(MissingDb)
      else Ok(Listener(Get(opts, "id").s, Get(opts, "process").ref, Get(opts, "db"), With(follow, "include_docs", Bool(true))))
  }

  // ---------------------------------------------------------------------
  // Eligibility

  /**
   `isProcessable(doc)`: no worker touched the document, or no worker holds a
   `triggered` claim on it and this worker has no entry of its own.
   */
  function IsProcessable(doc: Value, id: string): (r: bool)
    ensures !Truthy(StatusObject(doc)) ==> r
    ensures (exists other :: TriggeredBy(doc, other)) ==> !r
    ensures ArrayClaim(StatusObject(doc)) ==> !r
    ensures Truthy(StatusObject(doc)) && !AnyTriggered(doc) ==> (r <==> !Truthy(Entry(doc, id)))
  {
    if !Truthy(StatusObject(doc)) then true
    else if AnyTriggered(doc) then false
    else !Truthy(Entry(doc, id))
  }

  // ---------------------------------------------------------------------
  // Document transformations

  /** The claim written in `onchange`: own entry `triggered`, its `error` dropped. */
  function ClaimDoc(doc: Value, id: string): (r: Value)
    requires WellShaped(doc)
    ensures WellShaped(r) && StatusObject(r).Obj?
    ensures forall k :: k != StatusKey ==> Get(r, k) == Get(doc, k)
    ensures forall k :: k != id ==> Entry(r, k) == Entry(doc, k)
    ensures !Truthy(Entry(doc, id)) ==>
      forall f :: Get(Entry(r, id), f) == (if f == "status" then Str(Triggered) else Undefined)
    ensures Entry(doc, id).Obj? ==> Entry(r, id).Obj? && Get(Entry(r, id), "error") == Undefined
    ensures Entry(doc, id).Obj? ==> forall f :: f != "status" && f != "error" ==> Get(Entry(r, id), f) == Get(Entry(doc, id), f)
    ensures Entry(doc, id).Obj? || !Truthy(Entry(doc, id)) ==> TriggeredBy(r, id)
  {
    var ws := if Truthy(StatusObject(doc)) then StatusObject(doc) else EmptyObject();
    var entry := Or(Get(ws, id), EmptyObject());
    var entry' := Without(With(entry, "status", Str(Triggered)), "error");
    With(doc, StatusKey, With(ws, id, entry'))
  }

  /** The commit written in `ondone`: own entry `error` with the payload, or `complete`. */
  function MarkDone(doc: Value, id: string, err: Value): (r: Value)
    requires doc.Obj? && StatusObject(doc).Obj? && Entry(doc, id).Obj?
    ensures WellShaped(r) && StatusObject(r).Obj? && Entry(r, id).Obj?
    ensures forall k :: k != StatusKey ==> Get(r, k) == Get(doc, k)
    ensures forall k :: k != id ==> Entry(r, k) == Entry(doc, k)
    ensures Truthy(err) ==> Get(Entry(r, id), "status") == Str("error") && Get(Entry(r, id), "error") == err
    ensures !Truthy(err) ==> Get(Entry(r, id), "status") == Str("complete")
    ensures !Truthy(err) ==> Get(Entry(r, id), "error") == Get(Entry(doc, id), "error")
    ensures forall f :: f != "status" && f != "error" ==> Get(Entry(r, id), f) == Get(Entry(doc, id), f)
    ensures !TriggeredBy(r, id)
  {
    var ws := StatusObject(doc);
    var entry := Get(ws, id);
    var entry' :=
      if Truthy(err) then With(With(entry, "status", Str("error")), "error", err)
      else With(entry, "status", Str("complete"));
    With(doc, StatusKey, With(ws, id, entry'))
  }

  // ---------------------------------------------------------------------
  // Laws relating eligibility, claim and commit

  /** After a claim, the document holds exactly one `triggered` entry, the claimer's. */
  lemma ClaimLeavesOneTrigger(doc: Value, id: string)
    requires WellShaped(doc) && IsProcessable(doc, id)
    ensures TriggeredBy(ClaimDoc(doc, id), id)
    ensures forall k :: TriggeredBy(ClaimDoc(doc, id), k) ==> k == id
  {
    var c := ClaimDoc(doc, id);
    forall k | k != id
      ensures !TriggeredBy(c, k)
    {
      assert Entry(c, k) == Entry(doc, k);
      if Truthy(StatusObject(doc)) {
        assert !TriggeredBy(doc, k);
      }
    }
  }

  /** Once claimed, a document is processable for nobody, the claimer included. */
  lemma ClaimExcludesEveryone(doc: Value, id: string, other: string)
    requires WellShaped(doc) && IsProcessable(doc, id)
    ensures !IsProcessable(ClaimDoc(doc, id), other)
  {
    ClaimLeavesOneTrigger(doc, id);
  }

  /**
   Claim then commit: no claim is left behind, the worker never processes
   the document again, and any other worker may take it exactly when it has
   no entry of its own.
   */
  lemma CommitReleases(doc: Value, id: string, err: Value, other: string)
    requires WellShaped(doc) && IsProcessable(doc, id)
    ensures var done := MarkDone(ClaimDoc(doc, id), id, err);
      && !AnyTriggered(done)
      && !IsProcessable(done, id)
      && (other != id ==> (IsProcessable(done, other) <==> !Truthy(Entry(doc, other))))
  {
    ClaimLeavesOneTrigger(doc, id);
    MarkDoneClears(ClaimDoc(doc, id), id, err);
  }

  /** A commit over the only claim on the document leaves none. */
  lemma MarkDoneClears(doc: Value, id: string, err: Value)
    requires doc.Obj? && StatusObject(doc).Obj? && Entry(doc, id).Obj?
    requires forall k :: TriggeredBy(doc, k) ==> k == id
    ensures !AnyTriggered(MarkDone(doc, id, err))
  {
    var done := MarkDone(doc, id, err);
    forall k | TriggeredBy(done, k)
      ensures false
    {
      if k != id {
        assert Entry(done, k) == Entry(doc, k);
        assert TriggeredBy(doc, k);
      }
    }
  }

  // ---------------------------------------------------------------------
  // The worker instance

  datatype Phase = Idle | Processing(doc: Value)

  /** What a listener of the returned feed observes, in order. */
  datatype Event =
    | ProcessCalled(doc: Value)                 // process(doc, ondone)
    | WorkerError(error: Value, doc: Value)     // 'worker:error'
    | WorkerComplete(doc: Value)                // 'worker:complete'
    | NextCalled(error: Value, doc: Value)      // next(err, doc) after the commit

  datatype Agent = Agent(id: string, paused: bool, phase: Phase, events: seq<Event>)

  /** `listen` has subscribed: the feed is flowing and nothing happened yet. */
  function Start(l: Listener): (a: Agent)
    ensures a.id == l.id && !a.paused && a.phase.Idle? && a.events == []
  {
    Agent(l.id, false, Idle, [])
  }

  /** Whether a failed write is reported: every failure but a conflict. */
  predicate Reported(err: Value) {
    !StrictEquals(Get(err, "error"), Str("conflict"))
  }

  /**
   `onchange` as written: skip an ineligible document; otherwise pause the
   feed, write the claim based on the revision read, and on success hand the
   claimed document, with its new revision, to `process`. A failed claim
   returns without resuming the feed.
   */
  function OnChangeAsWritten(a: Agent, s: Store.Store, doc: Value, fault: Option<Value>): (r: (Agent, Store.Store))
    requires a.phase.Idle? && !a.paused && WellShaped(doc)
    ensures !IsProcessable(doc, a.id) ==> r == (a, s)
    ensures IsProcessable(doc, a.id) ==> r.0.paused
    ensures r.0.id == a.id
    ensures r.0.phase.Processing? <==>
      IsProcessable(doc, a.id) && fault.None? && Get(doc, "_rev") == Store.RevToken(Store.Head(s.log, IdOf(doc)))
    ensures r.0.phase.Processing? ==>
      && r.1.log == s.log + [Store.Write(IdOf(doc), ClaimDoc(doc, a.id))]
      && r.0.phase.doc == With(ClaimDoc(doc, a.id), "_rev", Num(|r.1.log|))
      && r.0.events == a.events + [ProcessCalled(r.0.phase.doc)]
    ensures !r.0.phase.Processing? ==> r.1 == s
    ensures !r.0.phase.Processing? && IsProcessable(doc, a.id) ==>
      r.0.events == a.events + (if fault.Some? && Reported(fault.value) then [WorkerError(fault.value, ClaimDoc(doc, a.id))] else [])
  {
    if !IsProcessable(doc, a.id) then (a, s)
    else
      var body := ClaimDoc(doc, a.id);
      assert IdOf(body) == IdOf(doc);
      var paused := a.(paused := true);
      match Store.Put(s, body, Get(doc, "_rev"), fault)
      case Stored(s', rev) =>
        var held := With(body, "_rev", Num(rev));
        (paused.(phase := Processing(held), events := a.events + [ProcessCalled(held)]), s')
      case Conflict => (paused, s)
      case Failed(e) =>
        (if Reported(e) then paused.(events := a.events + [WorkerError(e, body)]) else paused, s)
  }

  /** `onchange` with the feed resumed after a failed claim, so the next change can arrive. */
  function OnChange(a: Agent, s: Store.Store, doc: Value, fault: Option<Value>): (r: (Agent, Store.Store))
    requires a.phase.Idle? && !a.paused && WellShaped(doc)
    ensures r.0.phase.Idle? ==> !r.0.paused
    ensures r.0.phase.Processing? ==> r.0.paused
    ensures var w := OnChangeAsWritten(a, s, doc, fault);
      r.1 == w.1 && r.0.phase == w.0.phase && r.0.events == w.0.events && r.0.id == w.0.id
  {
    var (a', s') := OnChangeAsWritten(a, s, doc, fault);
    (if a'.phase.Idle? then a'.(paused := false) else a', s')
  }

  /**
   What `process` may leave in the document it was handed: any content, with
   the id, the revision and the status map as the claim left them.
   */
  predicate KeepsClaim(held: Value, processed: Value) {
    && processed.Obj?
    && Get(processed, "_id") == Get(held, "_id")
    && Get(processed, "_rev") == Get(held, "_rev")
    && StatusObject(processed) == StatusObject(held)
  }

  /**
   `ondone(err, next)`: record the outcome in the own entry of the document as
   `process` left it and write that, based on the revision it carries; report
   `worker:complete` with the new revision or `worker:error` with the write's
   error; resume the feed either way; hand `next` the write's error, not the
   processing error.
   */
  function OnDone(a: Agent, s: Store.Store, processed: Value, err: Value, hasNext: bool, fault: Option<Value>): (r: (Agent, Store.Store))
    requires a.phase.Processing?
    requires a.phase.doc.Obj? && StatusObject(a.phase.doc).Obj? && Entry(a.phase.doc, a.id).Obj?
    requires KeepsClaim(a.phase.doc, processed)
    ensures r.0.phase.Idle? && !r.0.paused && r.0.id == a.id
    ensures var body := MarkDone(processed, a.id, err);
      var o := Store.Put(s, body, Get(a.phase.doc, "_rev"), fault);
      if o.Stored? then
        var saved := With(body, "_rev", Num(o.rev));
        && r.1 == o.store
        && r.0.events == a.events + [WorkerComplete(saved)] + (if hasNext then [NextCalled(Null, saved)] else [])
      else
        && r.1 == s
        && r.0.events == a.events + [WorkerError(Store.ErrorOf(o), body)]
                                  + (if hasNext then [NextCalled(Store.ErrorOf(o), body)] else [])
  {
    var body := MarkDone(processed, a.id, err);
    var o := Store.Put(s, body, Get(processed, "_rev"), fault);
    var idle := a.(paused := false, phase := Idle);
    if o.Stored? then
      var saved := With(body, "_rev", Num(o.rev));
      (idle.(events := a.events + [WorkerComplete(saved)] + (if hasNext then [NextCalled(Null, saved)] else [])), o.store)
    else
      var e := Store.ErrorOf(o);
      (idle.(events := a.events + [WorkerError(e, body)] + (if hasNext then [NextCalled(e, body)] else [])), s)
  }

  // ---------------------------------------------------------------------
  // The paused feed after a failed claim

  /** An agent that can still act: the feed may deliver to it, or its `process` may call back. */
  predicate CanAct(a: Agent) {
    (a.phase.Idle? && !a.paused) || a.phase.Processing?
  }

  /**
   As written, a failed claim leaves the feed paused with nothing in flight:
   the agent can never act again. A document `{_id: "d"}` read at revision 1
   after a second write made revision 2 is such a claim.
   */
  lemma StallAfterConflict()
    ensures var doc := With(EmptyObject(), "_id", Str("d"));
      var s := Store.Store([Store.Write("d", doc), Store.Write("d", doc)]);
      var a := Agent("w", false, Idle, []);
      var r := OnChangeAsWritten(a, s, Store.Snapshot(s, 1), None);
      && IsProcessable(Store.Snapshot(s, 1), "w")
      && r.1 == s
      && r.0.events == []
      && !CanAct(r.0)
  {
    var doc := With(EmptyObject(), "_id", Str("d"));
    var s := Store.Store([Store.Write("d", doc), Store.Write("d", doc)]);
    var snap := Store.Snapshot(s, 1);
    assert IdOf(snap) == "d";
    assert Store.Head(s.log, "d") == 2;
    assert Get(snap, "_rev") == Num(1);
  }

  /** With the feed resumed, every claim outcome leaves the agent able to act. */
  lemma NoStall(a: Agent, s: Store.Store, doc: Value, fault: Option<Value>)
    requires a.phase.Idle? && !a.paused && WellShaped(doc)
    ensures CanAct(OnChange(a, s, doc, fault).0)
  {
  }
}

=== FILE: couchdb_world.dfy ===
/**
 Several feed workers of `lib/couchdb-worker.js` sharing one store.

 Each agent receives changes from its own feed, in any interleaving, and a
 feed may deliver any revision a document ever had, however stale. The
 only coordination between agents is the store's revision check on the
 claim and commit writes. The workers are the store's only writers:
 every write goes through a claim or a commit, and writes by anything else
 (a user, another program) are not part of this world.

 The invariant `Inv` says that no stored revision ever holds two
 `triggered` entries, that an agent holding a document holds its latest
 revision with its own claim on it, and that no two agents hold the same
 document at once.
 */
module CouchWorld {
  import opened Wrappers
  import opened Json
  import opened StatusMap
  import Store
  import opened CouchWorker

  /** Which `onchange` the workers run: the program's, or the one that resumes the feed after a failed claim. */
  datatype Version = AsWritten | Corrected

  datatype World = World(store: Store.Store, agents: seq<Agent>, version: Version)

  /** One thing that can happen next: a feed delivers a revision, or a `process` calls back. */
  datatype Action =
    | Deliver(agent: nat, rev: nat, fault: Option<Value>)
    | Finish(agent: nat, processed: Value, err: Value, hasNext: bool, fault: Option<Value>)

  /** Every revision ever stored is a well-shaped document with at most one claim on it. */
  ghost predicate StoredOk(s: Store.Store) {
    && Store.Filed(s)
    && forall i :: 0 <= i < |s.log| ==> WellShaped(s.log[i].body) && AtMostOneTriggered(s.log[i].body)
  }

  /** The agent holds the latest revision of its document, with its own claim on it. */
  ghost predicate Owns(s: Store.Store, a: Agent)
    requires a.phase.Processing?
  {
    var doc := a.phase.doc;
    var h := Store.Head(s.log, IdOf(doc));
    && 1 <= h
    && doc == Store.Snapshot(s, h)
    && TriggeredBy(doc, a.id)
  }

  ghost predicate Inv(w: World) {
    && StoredOk(w.store)
    && (forall i :: 0 <= i < |w.agents| && w.agents[i].phase.Processing? ==>
          w.agents[i].paused && Owns(w.store, w.agents[i]))
    && (forall i, j :: 0 <= i < j < |w.agents| && w.agents[i].phase.Processing? && w.agents[j].phase.Processing? ==>
          IdOf(w.agents[i].phase.doc) != IdOf(w.agents[j].phase.doc))
  }

  /** A world can start from any store of well-shaped documents with at most one claim each. */
  function Init(s: Store.Store, listeners: seq<Listener>, version: Version): (w: World)
    requires StoredOk(s)
    ensures Inv(w)
    ensures |w.agents| == |listeners| && w.version == version
  {
    World(s, seq(|listeners|, i requires 0 <= i < |listeners| => Start(listeners[i])), version)
  }

  /** A change delivered to an idle agent, handled by the world's `onchange`. */
  function Receive(v: Version, a: Agent, s: Store.Store, doc: Value, fault: Option<Value>): (Agent, Store.Store)
    requires a.phase.Idle? && !a.paused && WellShaped(doc)
  {
    if v.AsWritten? then OnChangeAsWritten(a, s, doc, fault) else OnChange(a, s, doc, fault)
  }

  function Step(w: World, act: Action): World {
    match act
    case Deliver(i, rev, fault) =>
      if i < |w.agents| && w.agents[i].phase.Idle? && !w.agents[i].paused
         && 1 <= rev <= |w.store.log| && WellShaped(Store.Snapshot(w.store, rev))
      then
        var r := Receive(w.version, w.agents[i], w.store, Store.Snapshot(w.store, rev), fault);
        w.(store := r.1, agents := w.agents[i := r.0])
      else w
    case Finish(i, processed, err, hasNext, fault) =>
      if i < |w.agents| && w.agents[i].phase.Processing?
         && w.agents[i].phase.doc.Obj? && StatusObject(w.agents[i].phase.doc).Obj?
         && Entry(w.agents[i].phase.doc, w.agents[i].id).Obj?
         && KeepsClaim(w.agents[i].phase.doc, processed)
      then
        var r := OnDone(w.agents[i], w.store, processed, err, hasNext, fault);
        w.(store := r.1, agents := w.agents[i := r.0])
      else w
  }

  function Run(w: World, acts: seq<Action>): World
    decreases |acts|
  {
    if |acts| == 0 then w else Run(Step(w, acts[0]), acts[1..])
  }

  // ---------------------------------------------------------------------
  // Helpers about snapshots

  /** A revision as read carries the stored body's id and claims. */
  lemma SnapshotLikeBody(s: Store.Store, rev: nat)
    requires StoredOk(s) && 1 <= rev <= |s.log|
    ensures var snap := Store.Snapshot(s, rev);
      && WellShaped(snap)
      && AtMostOneTriggered(snap)
      && IdOf(snap) == s.log[rev - 1].id
      && Get(snap, "_rev") == Num(rev)
  {
    var body := s.log[rev - 1].body;
    var snap := Store.Snapshot(s, rev);
    assert StatusObject(snap) == StatusObject(body);
    assert forall k :: TriggeredBy(snap, k) ==> TriggeredBy(body, k);
  }

  /** A successful write leaves the other documents' latest revisions as they were. */
  lemma OthersUnmoved(s: Store.Store, s': Store.Store, id: string, a: Agent)
    requires |s.log| <= |s'.log| && s'.log[..|s.log|] == s.log
    requires forall k :: k != id ==> Store.Head(s'.log, k) == Store.Head(s.log, k)
    requires a.phase.Processing? && Owns(s, a) && IdOf(a.phase.doc) != id
    ensures Owns(s', a)
  {
    var h := Store.Head(s.log, IdOf(a.phase.doc));
    assert s'.log[h - 1] == s.log[h - 1];
    assert Store.Head(s'.log, IdOf(a.phase.doc)) == h;
    assert Store.Snapshot(s', h) == Store.Snapshot(s, h);
  }

  // ---------------------------------------------------------------------
  // The invariant is preserved

  /** Appending a well-shaped revision with at most one claim keeps the store in shape. */
  lemma AppendKeepsStoredOk(s: Store.Store, body: Value)
    requires StoredOk(s) && WellShaped(body) && AtMostOneTriggered(body)
    ensures StoredOk(Store.Store(s.log + [Store.Write(IdOf(body), body)]))
  {
    var s' := Store.Store(s.log + [Store.Write(IdOf(body), body)]);
    forall n | 0 <= n < |s'.log|
      ensures s'.log[n].id == IdOf(s'.log[n].body)
      ensures WellShaped(s'.log[n].body) && AtMostOneTriggered(s'.log[n].body)
    {
      if n < |s.log| {
        assert s'.log[n] == s.log[n];
      }
    }
  }

  /**
   The invariant after agent `i` moved to `a'` and the store to `s'`, from
   what the move has to establish.
   */
  lemma InvAfterMove(w: World, i: nat, s': Store.Store, a': Agent)
    requires Inv(w) && i < |w.agents|
    requires StoredOk(s')
    requires a'.phase.Processing? ==> a'.paused && Owns(s', a')
    requires forall j :: 0 <= j < |w.agents| && j != i && w.agents[j].phase.Processing? ==> Owns(s', w.agents[j])
    requires a'.phase.Processing? ==>
      forall j :: 0 <= j < |w.agents| && j != i && w.agents[j].phase.Processing? ==>
        IdOf(w.agents[j].phase.doc) != IdOf(a'.phase.doc)
    ensures Inv(w.(store := s', agents := w.agents[i := a']))
  {
  }

  /** A write that changes neither the store nor agent `i`'s claim keeps the invariant. */
  lemma IdleUpdateKeepsInv(w: World, i: nat, a': Agent)
    requires Inv(w) && i < |w.agents| && a'.phase.Idle?
    ensures Inv(w.(agents := w.agents[i := a']))
  {
  }

  /**
   An agent holding the latest revision of a document has its claim on that
   revision, so the document is processable for nobody.
   */
  lemma HeldIsClaimed(w: World, j: nat, rev: nat, name: string)
    requires Inv(w) && j < |w.agents| && w.agents[j].phase.Processing?
    requires 1 <= rev <= |w.store.log|
    requires Store.Head(w.store.log, IdOf(Store.Snapshot(w.store, rev))) == rev
    ensures IdOf(w.agents[j].phase.doc) == IdOf(Store.Snapshot(w.store, rev)) ==>
      !IsProcessable(Store.Snapshot(w.store, rev), name)
  {
    assert Owns(w.store, w.agents[j]);
  }

  /** A landed claim: the write it appended and the agent it leaves holding the new revision. */
  lemma ClaimKeepsInv(w: World, i: nat, rev: nat, fault: Option<Value>)
    requires Inv(w)
    requires i < |w.agents| && w.agents[i].phase.Idle? && !w.agents[i].paused
    requires 1 <= rev <= |w.store.log|
    requires WellShaped(Store.Snapshot(w.store, rev))
    requires OnChange(w.agents[i], w.store, Store.Snapshot(w.store, rev), fault).0.phase.Processing?
    ensures var r := OnChange(w.agents[i], w.store, Store.Snapshot(w.store, rev), fault);
      Inv(w.(store := r.1, agents := w.agents[i := r.0]))
  {
    var s := w.store;
    var a := w.agents[i];
    SnapshotLikeBody(s, rev);
    var doc := Store.Snapshot(s, rev);
    var id := IdOf(doc);
    var r := OnChange(a, s, doc, fault);
    assert IsProcessable(doc, a.id);
    assert Store.Head(s.log, id) == rev;
    var body := ClaimDoc(doc, a.id);
    ClaimLeavesOneTrigger(doc, a.id);
    assert IdOf(body) == id;
    var s' := r.1;
    assert s' == Store.Store(s.log + [Store.Write(IdOf(body), body)]);
    AppendKeepsStoredOk(s, body);
    assert s'.log[..|s.log|] == s.log;
    var o := Store.Put(s, body, Get(doc, "_rev"), fault);
    assert o.Stored? && o.store == s';
    // Nobody else holds this document: its latest revision carries no claim.
    forall j | 0 <= j < |w.agents| && j != i && w.agents[j].phase.Processing?
      ensures IdOf(w.agents[j].phase.doc) != id
      ensures Owns(s', w.agents[j])
    {
      HeldIsClaimed(w, j, rev, a.id);
      OthersUnmoved(s, s', id, w.agents[j]);
    }
    var held := r.0.phase.doc;
    assert held == Store.Snapshot(s', |s'.log|);
    assert TriggeredBy(held, a.id) by {
      assert StatusObject(held) == StatusObject(body);
    }
    assert IdOf(held) == id;
    assert Owns(s', r.0);
    InvAfterMove(w, i, s', r.0);
  }

  /**
   Delivering a stored revision to an idle agent keeps the invariant, under
   either `onchange`: the two differ only in whether an idle agent is left
   paused, which the invariant does not constrain.
   */
  lemma DeliverPreservesInv(w: World, i: nat, rev: nat, fault: Option<Value>)
    requires Inv(w)
    requires i < |w.agents| && w.agents[i].phase.Idle? && !w.agents[i].paused
    requires 1 <= rev <= |w.store.log|
    ensures Inv(Step(w, Deliver(i, rev, fault)))
  {
    SnapshotLikeBody(w.store, rev);
    var doc := Store.Snapshot(w.store, rev);
    var r := OnChange(w.agents[i], w.store, doc, fault);
    var r' := Receive(w.version, w.agents[i], w.store, doc, fault);
    if r.0.phase.Processing? {
      assert r' == r;
      ClaimKeepsInv(w, i, rev, fault);
    } else {
      assert r'.0.phase.Idle? && r'.1 == w.store;
      IdleUpdateKeepsInv(w, i, r'.0);
    }
  }

  /** The commit removes the only claim the document had and keeps its id. */
  lemma CommitBodyOk(doc: Value, id: string, err: Value)
    requires doc.Obj? && StatusObject(doc).Obj? && Entry(doc, id).Obj?
    requires TriggeredBy(doc, id) && AtMostOneTriggered(doc)
    ensures var body := MarkDone(doc, id, err);
      WellShaped(body) && AtMostOneTriggered(body) && IdOf(body) == IdOf(doc)
  {
    var body := MarkDone(doc, id, err);
    forall k | TriggeredBy(body, k)
      ensures false
    {
      assert TriggeredBy(doc, k);
    }
  }

  /** What `process` leaves keeps the held document's claims and id. */
  lemma ProcessedLikeHeld(held: Value, processed: Value)
    requires KeepsClaim(held, processed)
    ensures forall k :: Entry(processed, k) == Entry(held, k)
    ensures forall k :: TriggeredBy(processed, k) <==> TriggeredBy(held, k)
    ensures AtMostOneTriggered(held) ==> AtMostOneTriggered(processed)
    ensures IdOf(processed) == IdOf(held)
  {
  }

  /** A landed commit: the claim is gone from the new revision and the agent is idle again. */
  lemma CommitKeepsInv(w: World, i: nat, processed: Value, err: Value, hasNext: bool, fault: Option<Value>)
    requires Inv(w)
    requires i < |w.agents| && w.agents[i].phase.Processing?
    requires KeepsClaim(w.agents[i].phase.doc, processed)
    requires OnDone(w.agents[i], w.store, processed, err, hasNext, fault).1 != w.store
    ensures var r := OnDone(w.agents[i], w.store, processed, err, hasNext, fault);
      Inv(w.(store := r.1, agents := w.agents[i := r.0]))
  {
    var s := w.store;
    var a := w.agents[i];
    var doc := a.phase.doc;
    var id := IdOf(doc);
    var h := Store.Head(s.log, id);
    assert Owns(s, a);
    SnapshotLikeBody(s, h);
    ProcessedLikeHeld(doc, processed);
    var r := OnDone(a, s, processed, err, hasNext, fault);
    var body := MarkDone(processed, a.id, err);
    CommitBodyOk(processed, a.id, err);
    var o := Store.Put(s, body, Get(doc, "_rev"), fault);
    assert o.Stored? && o.store == r.1;
    var s' := r.1;
    assert s' == Store.Store(s.log + [Store.Write(IdOf(body), body)]);
    assert s'.log[..|s.log|] == s.log;
    AppendKeepsStoredOk(s, body);
    forall j | 0 <= j < |w.agents| && j != i && w.agents[j].phase.Processing?
      ensures Owns(s', w.agents[j])
    {
      OthersUnmoved(s, s', id, w.agents[j]);
    }
    InvAfterMove(w, i, s', r.0);
  }

  lemma FinishPreservesInv(w: World, i: nat, processed: Value, err: Value, hasNext: bool, fault: Option<Value>)
    requires Inv(w)
    requires i < |w.agents| && w.agents[i].phase.Processing?
    ensures Inv(Step(w, Finish(i, processed, err, hasNext, fault)))
  {
    var a := w.agents[i];
    assert Owns(w.store, a);
    SnapshotLikeBody(w.store, Store.Head(w.store.log, IdOf(a.phase.doc)));
    if KeepsClaim(a.phase.doc, processed) {
      var r := OnDone(a, w.store, processed, err, hasNext, fault);
      if r.1 != w.store {
        CommitKeepsInv(w, i, processed, err, hasNext, fault);
      } else {
        IdleUpdateKeepsInv(w, i, r.0);
      }
    }
  }

  lemma StepPreservesInv(w: World, act: Action)
    requires Inv(w)
    ensures Inv(Step(w, act))
  {
    match act
    case Deliver(i, rev, fault) =>
      if i < |w.agents| && w.agents[i].phase.Idle? && !w.agents[i].paused && 1 <= rev <= |w.store.log| {
        DeliverPreservesInv(w, i, rev, fault);
      }
    case Finish(i, processed, err, hasNext, fault) =>
      if i < |w.agents| && w.agents[i].phase.Processing? {
        FinishPreservesInv(w, i, processed, err, hasNext, fault);
      }
  }

  /**
   Whatever the feeds deliver and however the writes interleave, no stored
   revision ever holds two `triggered` entries and no two agents process the
   same document at once, with the program's `onchange` as with the
   corrected one.
   */
  lemma {:induction false} RunKeepsExclusion(w: World, acts: seq<Action>)
    requires Inv(w)
    ensures var w' := Run(w, acts);
      && (forall n :: 0 <= n < |w'.store.log| ==> AtMostOneTriggered(w'.store.log[n].body))
      && (forall i, j :: 0 <= i < j < |w'.agents| && w'.agents[i].phase.Processing? && w'.agents[j].phase.Processing? ==>
            IdOf(w'.agents[i].phase.doc) != IdOf(w'.agents[j].phase.doc))
    ensures Inv(Run(w, acts))
    decreases |acts|
  {
    if |acts| > 0 {
      StepPreservesInv(w, acts[0]);
      RunKeepsExclusion(Step(w, acts[0]), acts[1..]);
    }
  }

  /** A processing agent's commit never conflicts: no other worker can have written its document meanwhile. */
  lemma CommitNeverConflicts(w: World, i: nat, processed: Value, err: Value, hasNext: bool)
    requires Inv(w)
    requires i < |w.agents| && w.agents[i].phase.Processing?
    requires KeepsClaim(w.agents[i].phase.doc, processed)
    ensures var w' := Step(w, Finish(i, processed, err, hasNext, None));
      && |w'.store.log| == |w.store.log| + 1
      && w'.agents[i].phase.Idle? && !w'.agents[i].paused
  {
    var a := w.agents[i];
    var h := Store.Head(w.store.log, IdOf(a.phase.doc));
    assert Owns(w.store, a);
    SnapshotLikeBody(w.store, h);
    ProcessedLikeHeld(a.phase.doc, processed);
    assert IdOf(MarkDone(processed, a.id, err)) == IdOf(a.phase.doc);
  }

  /**
   Two agents read the same revision and race to claim it. Once the first
   claim lands, the second one conflicts: it writes nothing, reports nothing
   and holds nothing. The program's `onchange` leaves the loser's feed paused
   whenever the document was processable for it; the corrected one keeps it
   flowing.
   */
  lemma ClaimRace(w: World, i: nat, j: nat, rev: nat)
    requires Inv(w)
    requires i < |w.agents| && j < |w.agents| && i != j
    requires w.agents[i].phase.Idle? && !w.agents[i].paused
    requires w.agents[j].phase.Idle? && !w.agents[j].paused
    requires 1 <= rev <= |w.store.log|
    requires Step(w, Deliver(i, rev, None)).agents[i].phase.Processing?
    ensures var w1 := Step(w, Deliver(i, rev, None));
      var w2 := Step(w1, Deliver(j, rev, None));
      && w2.store == w1.store
      && w2.agents[j].phase.Idle?
      && w2.agents[j].events == w.agents[j].events
      && (w2.agents[j].paused <==> w.version.AsWritten? && IsProcessable(Store.Snapshot(w.store, rev), w.agents[j].id))
  {
    var s := w.store;
    SnapshotLikeBody(s, rev);
    var doc := Store.Snapshot(s, rev);
    var w1 := Step(w, Deliver(i, rev, None));
    var r1 := Receive(w.version, w.agents[i], s, doc, None);
    assert w1 == w.(store := r1.1, agents := w.agents[i := r1.0]);
    var s1 := w1.store;
    assert s1.log[..|s.log|] == s.log;
    assert s1.log[rev - 1] == s.log[rev - 1];
    assert Store.Snapshot(s1, rev) == doc;
    assert IdOf(ClaimDoc(doc, w.agents[i].id)) == IdOf(doc);
    assert Store.Head(s1.log, IdOf(doc)) == |s1.log|;
  }
}

=== FILE: json.dfy ===
/**
 JavaScript values as the workers see them: parsed JSON documents plus
 `undefined` and function references (configuration objects carry
 callbacks). An object is its properties plus the order its keys were
 added in, and enumeration lists the keys in that order. JavaScript lists
 integer-like keys ("0", "42") first, in ascending order, and the rest in
 insertion order; the two agree on objects without integer-like keys.
 */
module Json {

  datatype Value =
    | Undefined
    | Null
    | Bool(b: bool)
    | Num(n: int)
    | Str(s: string)
    | Arr(items: seq<Value>)
    | Obj(props: map<string, Value>, order: seq<string>)
    | Func(ref: nat)

  /** One key/value pair as `for (k in v)` visits it. */
  datatype Field = Field(key: string, val: Value)

  /** JavaScript truthiness (`!!v`). */
  predicate Truthy(v: Value) {
    match v
    case Undefined => false
    case Null => false
    case Bool(b) => b
    case Num(n) => n != 0
    case Str(s) => s != ""
    case _ => true
  }

  /** `typeof v === 'object'`, which also holds for `null` and arrays. */
  predicate IsObjectType(v: Value) {
    v.Null? || v.Arr? || v.Obj?
  }

  /** `a || b` */
  function Or(a: Value, b: Value): Value {
    if Truthy(a) then a else b
  }

  /** `a && b` */
  function And(a: Value, b: Value): Value {
    if Truthy(a) then b else a
  }

  /** `a === b`: primitives compare by value, two parsed objects or arrays are never the same object. */
  predicate StrictEquals(a: Value, b: Value) {
    match (a, b)
    case (Undefined, Undefined) => true
    case (Null, Null) => true
    case (Bool(x), Bool(y)) => x == y
    case (Num(x), Num(y)) => x == y
    case (Str(x), Str(y)) => x == y
    case (Func(x), Func(y)) => x == y
    case _ => false
  }

  /** No key is listed twice. */
  predicate Distinct(ks: seq<string>) {
    forall i, j :: 0 <= i < j < |ks| ==> ks[i] != ks[j]
  }

  /** An object lists each of its properties exactly once, and nothing else. */
  ghost predicate WellFormed(v: Value) {
    v.Obj? ==> Distinct(v.order) && forall k :: k in v.order <==> k in v.props
  }

  /** `{}` */
  function EmptyObject(): Value {
    Obj(map[], [])
  }

  // ---------------------------------------------------------------------
  // Property access

  /** `v[k]` for a named key; only objects carry named properties here. */
  function Get(v: Value, k: string): Value {
    if v.Obj? && k in v.props then v.props[k] else Undefined
  }

  /** `v[k] = x`: an existing key keeps its place, a new one goes last; a non-object is left alone. */
  function With(v: Value, k: string, x: Value): (r: Value)
    ensures v.Obj? <==> r.Obj?
    ensures v.Obj? ==> Get(r, k) == x
    ensures forall k' :: k' != k ==> Get(r, k') == Get(v, k')
  {
    if v.Obj? then Obj(v.props[k := x], if k in v.props then v.order else v.order + [k]) else v
  }

  /** The order list with every occurrence of `k` removed. */
  function Drop(order: seq<string>, k: string): (r: seq<string>)
    ensures forall k' :: k' in r <==> k' in order && k' != k
    ensures Distinct(order) ==> Distinct(r)
  {
    if |order| == 0 then []
    else if order[0] == k then Drop(order[1..], k)
    else
      var rest := Drop(order[1..], k);
      assert Distinct(order) ==> order[0] !in order[1..] && Distinct(order[1..]) by {
        if Distinct(order) {
          forall i | 0 <= i < |order| - 1 ensures order[1..][i] != order[0] {
            assert order[1..][i] == order[i + 1];
          }
        }
      }
      assert Distinct(order) ==> order[0] !in rest;
      [order[0]] + rest
  }

  /** `delete v[k]` */
  function Without(v: Value, k: string): (r: Value)
    ensures v.Obj? <==> r.Obj?
    ensures Get(r, k) == Undefined
    ensures forall k' :: k' != k ==> Get(r, k') == Get(v, k')
  {
    if v.Obj? then Obj(v.props - {k}, Drop(v.order, k)) else v
  }

  /** The keys of an object that are still present, in insertion order. */
  function Present(order: seq<string>, props: map<string, Value>): (ks: seq<string>)
    ensures forall k :: k in ks <==> k in order && k in props
    ensures (forall k :: k in order ==> k in props) ==> ks == order
  {
    if |order| == 0 then []
    else if order[0] in props then [order[0]] + Present(order[1..], props)
    else Present(order[1..], props)
  }

  /** `_.keys(v)` */
  function Keys(v: Value): (ks: seq<string>)
    ensures forall k :: k in ks <==> v.Obj? && k in v.order && k in v.props
  {
    if v.Obj? then Present(v.order, v.props) else []
  }

  /** On a well-formed object, `_.keys` lists every property exactly once and nothing else. */
  lemma KeysOfWellFormed(v: Value)
    requires v.Obj? && WellFormed(v)
    ensures Distinct(Keys(v))
    ensures forall k :: k in Keys(v) <==> k in v.props
  {
  }

  /** `v[k] = x` and `delete v[k]` keep an object well formed. */
  lemma UpdatesKeepWellFormed(v: Value, k: string, x: Value)
    requires WellFormed(v)
    ensures WellFormed(With(v, k, x))
    ensures WellFormed(Without(v, k))
  {
  }

  /** Builds an object from key/value pairs, later pairs overwriting earlier ones. */
  function ObjectOf(fields: seq<Field>): (r: Value)
    ensures r.Obj?
  {
    Extend(EmptyObject(), fields)
  }

  // ---------------------------------------------------------------------
  // Enumeration and `_.extend`

  function DigitChar(d: nat): char
    requires d < 10
  {
    "0123456789"[d]
  }

  /** `String(n)` for a non-negative integer. */
  function NatToString(n: nat): (s: string)
    ensures |s| > 0
    ensures forall i :: 0 <= i < |s| ==> '0' <= s[i] <= '9'
    decreases n
  {
    if n < 10 then [DigitChar(n)] else NatToString(n / 10) + [DigitChar(n % 10)]
  }

  /** The pairs `for (k in v)` visits: an object's keys, an array's or a string's indices. */
  function Enumerate(v: Value): (fs: seq<Field>)
    ensures !IsObjectType(v) && !v.Str? ==> fs == []
    ensures v.Null? ==> fs == []
  {
    match v
    case Obj(props, order) =>
      var ks := Present(order, props);
      seq(|ks|, i requires 0 <= i < |ks| => Field(ks[i], props[ks[i]]))
    case Arr(items) => seq(|items|, i requires 0 <= i < |items| => Field(NatToString(i), items[i]))
    case Str(s) => seq(|s|, i requires 0 <= i < |s| => Field(NatToString(i), Str([s[i]])))
    case _ => []
  }

  /** Some pair is named `k`. */
  predicate HasKey(fs: seq<Field>, k: string) {
    |fs| > 0 && (fs[|fs| - 1].key == k || HasKey(fs[..|fs| - 1], k))
  }

  /** The value the last pair named `k` carries: what a left-to-right copy leaves behind. */
  function LastValue(fs: seq<Field>, k: string): Value {
    if |fs| == 0 then Undefined
    else if fs[|fs| - 1].key == k then fs[|fs| - 1].val
    else LastValue(fs[..|fs| - 1], k)
  }

  /**
   `_.extend(target, source)` with the source's pairs: each is copied onto
   the target in order. A key is overwritten as a whole; nothing below the
   top level is merged.
   */
  function Extend(target: Value, fs: seq<Field>): (r: Value)
    ensures target.Obj? <==> r.Obj?
    ensures target.Obj? ==> forall k :: Get(r, k) == (if HasKey(fs, k) then LastValue(fs, k) else Get(target, k))
    ensures !target.Obj? ==> r == target
  {
    if |fs| == 0 then target
    else
      var last := fs[|fs| - 1];
      With(Extend(target, fs[..|fs| - 1]), last.key, last.val)
  }

  /** `_.extend(v, source)` */
  function ExtendValue(v: Value, source: Value): Value {
    Extend(v, Enumerate(source))
  }

  /** Copying pairs onto a well-formed object keeps it well formed. */
  lemma {:induction false} ExtendKeepsWellFormed(target: Value, fs: seq<Field>)
    requires WellFormed(target)
    ensures WellFormed(Extend(target, fs))
    decreases |fs|
  {
    if |fs| > 0 {
      ExtendKeepsWellFormed(target, fs[..|fs| - 1]);
      UpdatesKeepWellFormed(Extend(target, fs[..|fs| - 1]), fs[|fs| - 1].key, fs[|fs| - 1].val);
    }
  }

  /** Every object built from pairs is well formed, and `{}` has no keys. */
  lemma ObjectOfWellFormed(fs: seq<Field>)
    ensures WellFormed(ObjectOf(fs))
    ensures Keys(ObjectOf([])) == []
  {
    ExtendKeepsWellFormed(EmptyObject(), fs);
  }

  /** An object's own pairs carry its property values. */
  lemma EnumerateObject(v: Value)
    requires v.Obj?
    ensures forall i :: 0 <= i < |Enumerate(v)| ==> Enumerate(v)[i].key in v.props && Enumerate(v)[i].val == v.props[Enumerate(v)[i].key]
    ensures forall k :: k in Present(v.order, v.props) ==> HasKey(Enumerate(v), k)
  {
    var fs := Enumerate(v);
    var ks := Present(v.order, v.props);
    forall k | k in ks
      ensures HasKey(fs, k)
    {
      var i :| 0 <= i < |ks| && ks[i] == k;
      HasKeyAt(fs, i);
    }
  }

  lemma {:induction false} HasKeyAt(fs: seq<Field>, i: nat)
    requires i < |fs|
    ensures HasKey(fs, fs[i].key)
    decreases |fs|
  {
    if i < |fs| - 1 {
      HasKeyAt(fs[..|fs| - 1], i);
    }
  }

  /** When every pair named `k` carries `m[k]`, so does the last one. */
  lemma {:induction false} LastValueFrom(fs: seq<Field>, m: map<string, Value>, k: string)
    requires forall i :: 0 <= i < |fs| ==> fs[i].key in m && fs[i].val == m[fs[i].key]
    requires HasKey(fs, k)
    ensures k in m && LastValue(fs, k) == m[k]
    decreases |fs|
  {
    if fs[|fs| - 1].key != k {
      LastValueFrom(fs[..|fs| - 1], m, k);
    }
  }

  /** Keys a pair list has are keys of the map its pairs come from. */
  lemma {:induction false} HasKeyFrom(fs: seq<Field>, m: map<string, Value>, k: string)
    requires forall i :: 0 <= i < |fs| ==> fs[i].key in m
    requires HasKey(fs, k)
    ensures k in m
    decreases |fs|
  {
    if fs[|fs| - 1].key != k {
      HasKeyFrom(fs[..|fs| - 1], m, k);
    }
  }

  /**
   `_.extend(v, o)` with an object `o`: every key `o` enumerates takes `o`'s
   value, whole; every other key keeps `v`'s.
   */
  lemma ExtendWithObject(v: Value, o: Value, k: string)
    requires v.Obj? && o.Obj?
    ensures k in Keys(o) ==> Get(ExtendValue(v, o), k) == Get(o, k)
    ensures k !in Keys(o) ==> Get(ExtendValue(v, o), k) == Get(v, k)
  {
    var fs := Enumerate(o);
    EnumerateObject(o);
    if HasKey(fs, k) {
      LastValueFrom(fs, o.props, k);
      LastIndexExists(fs, k);
      var i :| 0 <= i < |fs| && fs[i].key == k;
      assert fs[i].key == Present(o.order, o.props)[i];
    }
  }

  /** A pair named `k` sits at some position. */
  lemma {:induction false} LastIndexExists(fs: seq<Field>, k: string)
    requires HasKey(fs, k)
    ensures exists i :: 0 <= i < |fs| && fs[i].key == k
    decreases |fs|
  {
    if fs[|fs| - 1].key != k {
      LastIndexExists(fs[..|fs| - 1], k);
      var i :| 0 <= i < |fs| - 1 && fs[..|fs| - 1][i].key == k;
      assert fs[i].key == k;
    }
  }

  // ---------------------------------------------------------------------
  // Strings

  /** The document's `_id`, or the empty string when it has none. */
  function IdOf(doc: Value): string {
    var id := Get(doc, "_id");
    if id.Str? then id.s else ""
  }

  predicate StartsWith(s: string, prefix: string) {
    |prefix| <= |s| && s[..|prefix|] == prefix
  }
}

=== FILE: status_map.dfy ===
/**
 The `worker_status` map a document carries: one entry per worker name,
 each an object with a `status` field (and, after a failure, `error`).
 Both worker versions read and write it.
 */
module StatusMap {
  import opened Json

  const StatusKey := "worker_status"
  const Triggered := "triggered"

  /** `doc.worker_status` */
  function StatusObject(doc: Value): Value {
    Get(doc, StatusKey)
  }

  /** `doc.worker_status[name]` */
  function Entry(doc: Value, name: string): Value {
    Get(StatusObject(doc), name)
  }

  /** `entry.status === 'triggered'` */
  predicate IsTriggeredEntry(entry: Value) {
    StrictEquals(Get(entry, "status"), Str(Triggered))
  }

  /** Worker `name` holds an in-flight claim on the document. */
  predicate TriggeredBy(doc: Value, name: string) {
    IsTriggeredEntry(Entry(doc, name))
  }

  /** A status map that is an array holding a `triggered` element. */
  predicate ArrayClaim(ws: Value) {
    ws.Arr? && exists i :: 0 <= i < |ws.items| && IsTriggeredEntry(ws.items[i])
  }

  /**
   `for (key in doc.worker_status)` meets a `triggered` entry. The loop visits
   an object's keys and an array's indices; a string's characters and the
   other primitives never carry a `status`.
   */
  predicate AnyTriggered(doc: Value)
    ensures AnyTriggered(doc) <==> (exists name :: TriggeredBy(doc, name)) || ArrayClaim(StatusObject(doc))
  {
    var ws := StatusObject(doc);
    || (ws.Obj? && exists name :: name in ws.props && TriggeredBy(doc, name))
    || ArrayClaim(ws)
  }

  /** The system-wide invariant on one document: at most one `triggered` entry. */
  ghost predicate AtMostOneTriggered(doc: Value) {
    forall a, b :: TriggeredBy(doc, a) && TriggeredBy(doc, b) ==> a == b
  }

  /**
   The documents the workers can handle: an object whose `worker_status`,
   when present, is an object too.
   */
  predicate WellShaped(doc: Value) {
    doc.Obj? && (!Truthy(StatusObject(doc)) || StatusObject(doc).Obj?)
  }
}

=== FILE: store.dfy ===
/**
 The shared, revision-checked document store both worker versions write to.

 The store is kept as its history: an append-only log of writes, where the
 write at index `i` creates revision `i + 1` of its document. The current
 content of a document is its latest write; older revisions stay readable
 because a change feed may deliver a document some writes late. A write
 names the revision it was based on and succeeds only when that is still
 the document's latest revision; otherwise it is a conflict.
 */
module Store {
  import opened Wrappers
  import opened Json

  datatype Write = Write(id: string, body: Value)

  datatype Store = Store(log: seq<Write>)

  /** Revision of the latest write of `id`, 0 when `id` was never written. */
  function Head(log: seq<Write>, id: string): (rev: nat)
    ensures rev <= |log|
    ensures rev > 0 ==> log[rev - 1].id == id
    ensures forall i :: rev <= i < |log| ==> log[i].id != id
  {
    if |log| == 0 then 0
    else if log[|log| - 1].id == id then |log|
    else Head(log[..|log| - 1], id)
  }

  /** The revision token a document carries in `_rev`; an unsaved document has none. */
  function RevToken(rev: nat): Value {
    if rev == 0 then Undefined else Num(rev)
  }

  /** Revision `rev` as a reader receives it: the body written, with `_rev` filled in. */
  function Snapshot(s: Store, rev: nat): Value
    requires 1 <= rev <= |s.log|
  {
    With(s.log[rev - 1].body, "_rev", Num(rev))
  }

  /** A store whose every write is filed under the body's own `_id`. */
  ghost predicate Filed(s: Store) {
    forall i :: 0 <= i < |s.log| ==> s.log[i].id == IdOf(s.log[i].body)
  }

  datatype Outcome =
    | Stored(store: Store, rev: nat)
    | Conflict
    | Failed(error: Value)

  /** The error object a conflicting write reports. */
  const ConflictError := With(EmptyObject(), "error", Str("conflict"))

  /** The error a failed write hands its callback. */
  function ErrorOf(o: Outcome): Value
    requires !o.Stored?
  {
    if o.Conflict? then ConflictError else o.error
  }

  /**
   Write `body` under its `_id`, based on revision token `base`. A transport
   fault (the request never reached the store) is a parameter.
   */
  function Put(s: Store, body: Value, base: Value, fault: Option<Value>): (o: Outcome)
    ensures o.Stored? <==> fault.None? && base == RevToken(Head(s.log, IdOf(body)))
    ensures o.Stored? ==> o.store.log == s.log + [Write(IdOf(body), body)] && o.rev == |s.log| + 1
    ensures o.Stored? ==> Head(o.store.log, IdOf(body)) == o.rev
    ensures o.Stored? ==> forall id :: id != IdOf(body) ==> Head(o.store.log, id) == Head(s.log, id)
    ensures o.Failed? ==> fault.Some?
  {
    match fault
    case Some(e) => Failed(e)
    case None =>
      if base == RevToken(Head(s.log, IdOf(body))) then
        var log := s.log + [Write(IdOf(body), body)];
        assert log[..|log| - 1] == s.log;
        Stored(Store(log), |s.log| + 1)
      else Conflict
  }

  /** A successful write keeps every earlier revision readable, unchanged. */
  lemma SnapshotsKept(s: Store, body: Value, base: Value, rev: nat)
    requires Put(s, body, base, None).Stored?
    requires 1 <= rev <= |s.log|
    ensures Snapshot(Put(s, body, base, None).store, rev) == Snapshot(s, rev)
  {
  }

  /**
   Two writers that read the same revision race: once one write lands, the
   other, based on the same revision, is a conflict and changes nothing.
   */
  lemma SameBaseRace(s: Store, first: Value, second: Value, base: Value)
    requires IdOf(first) == IdOf(second)
    requires Put(s, first, base, None).Stored?
    ensures Put(Put(s, first, base, None).store, second, base, None) == Conflict
  {
    var s1 := Put(s, first, base, None).store;
    var h := Head(s.log, IdOf(first));
    assert base == RevToken(h);
    assert Head(s1.log, IdOf(second)) == |s.log| + 1;
    assert RevToken(|s.log| + 1) != RevToken(h);
  }
}

=== FILE: wrappers.dfy ===
/** Option and Result, the two failure-carrying shapes the worker models use. */
module Wrappers {

  datatype Option<+T> = None | Some(value: T)

  /** The value of a call that either completed or threw. */
  datatype Result<+T, +E> = Ok(value: T) | Err(error: E)
}
